=== FILE: README.md ===
# Telegram video downloader: the dispatch-and-extraction pipeline in Dafny

The downloader is a Telegram bot. It is written in TypeScript on NestJS.
When a chat message arrives, `BotUpdate.onMessage` does four things:
- it takes the first `http(s)://` link from the text;
- it hands the link to `DownloadProcessorService.processUrl`;
- it answers with one video reply per URL it gets back, labelled `PART i of n` when there are several;
- otherwise it sends one generic apology.

The processor validates the link and looks its hostname up in a fixed 15-entry table. It then calls one of two downloaders:
- **The Instagram adapter.** It asks `InstagramMetadataService` for the media URL. That service:
  - follows share links;
  - extracts the post's shortcode;
  - fetches a CSRF token;
  - posts a GraphQL query, retrying with a doubling delay on 429/403;
  - picks the first child of a carousel.
- **The yt-dlp adapter.** It prepares a directory and queries the video's metadata. It rejects videos over 180 seconds, runs the download, checks the file and splits it into chunks.

This project models that pipeline as pure functions over immutable datatypes.
- Every network request, subprocess, file-system check and the clock become inputs.
  - **Instagram:** `Network` gives the redirect answer and the answers to the k-th root-page GET and the k-th GraphQL POST.
  - **yt-dlp:** `Environment` gives each step's success or failure and the splitter's chunk list.
  - **Clock and URL parser:** the timestamp is a number, and the WHATWG `URL` parser is an opaque `UrlParser`.
- Each operation returns its result together with a trace of the requests or effects it performed. This makes "called once", "never called", "in this order" and "at most n POSTs" provable.
- A thrown error is a `Failure` carrying the message text exactly as the code builds it.

Modules, one per source unit:
- `Wrappers`: `Option`, `Result` and `Outcome`.
- `Strings`: JavaScript `split`, first-occurrence `replace` and number rendering.
- `DownloadTypes`: the download result DTO and the URL parser type.
- `InstagramMetadata`, `InstagramAdapter`, `YtDlAdapter`, `DownloadProcessor` and `BotUpdate`: the services.
- `Pipeline`: end-to-end facts about the services wired together.

Three behaviours of the code that are easy to misread, modelled as written:
- **The `yt-dlp -J` metadata query is not wrapped.** It runs outside the `try` that adds `Failed to parse file size: `, so a failing process propagates its own error unchanged.
- **A missing or non-numeric duration is not rejected.** It is NaN after `parseInt`, every comparison with NaN is false, and the video is downloaded.
- **The CSRF token is not searched for by name.** It comes from the first `set-cookie` entry, whatever cookie that is.

## Model

| member | source | states |
|---|---|---|
| Strings.Split | src/adapters/instagram-adapter/instagram-metadata.service.ts:64 | `url.split('/')` always yields at least one piece. Joining the pieces with the separator restores the string. There is exactly one piece iff the separator does not occur. |
| Strings.SplitJoin | src/adapters/instagram-adapter/instagram-metadata.service.ts:74 | Splitting a join of separator-free pieces gives back exactly those pieces (the inverse of `Join`). |
| Strings.RemoveFirstSpec | src/adapters/instagram-adapter/instagram-metadata.service.ts:104 | `replace('csrftoken=', '')` cuts out exactly the leftmost occurrence of the pattern. |
| Strings.RemoveFirstAbsent | src/adapters/instagram-adapter/instagram-metadata.service.ts:104 | `replace` with a pattern that does not occur leaves the string unchanged. |
| Strings.NatToString | src/adapters/yt-dl-adapter/yt-dl-adapter.service.ts:172 | A number interpolated into a template is rendered as digits only, with no leading zero, and reads back as the same number. |
| InstagramMetadata.CheckRedirect | src/adapters/instagram-adapter/instagram-metadata.service.ts:63-70 | When some `/`-segment is exactly `share`, the URL is replaced by the redirect GET's answer, and an error of that GET propagates. Otherwise the URL comes back unchanged and no request is made. |
| InstagramMetadata.FirstTagIndex | src/adapters/instagram-adapter/instagram-metadata.service.ts:75-76 | `findIndex` over the post tags gives -1 iff no segment is `p`/`reel`/`tv`/`reels`. Otherwise it gives the first such segment, with no tag before it. |
| InstagramMetadata.GetShortcode | src/adapters/instagram-adapter/instagram-metadata.service.ts:72-87 | Succeeds iff the segment after the first post tag exists and is non-empty. A success is non-empty and `/`-free. Every failure is `Failed to obtain shortcode: Shortcode not found in URL`. |
| InstagramMetadata.ShortcodeOfJoin | src/adapters/instagram-adapter/instagram-metadata.service.ts:72-81 | For any URL built from `/`-free segments whose first post tag is followed by a non-empty segment, that segment is the shortcode. |
| InstagramMetadata.ShortcodeFromSegments | src/adapters/instagram-adapter/instagram-metadata.service.ts:74-81 | The non-empty segment following the first post tag of a URL's split is its shortcode. |
| InstagramMetadata.ShortcodeWithoutTag | src/adapters/instagram-adapter/instagram-metadata.service.ts:75-81 | With no post-tag segment, `-1 + 1 = 0` selects the first segment (for a full URL, the scheme `https:`). It is returned as the shortcode when non-empty. |
| InstagramMetadata.ShortcodeMissingAfterTag | src/adapters/instagram-adapter/instagram-metadata.service.ts:77-80 | A first post tag that is the last segment, or is followed by an empty segment, gives the shortcode error. |
| InstagramMetadata.ParseCsrfCookies | src/adapters/instagram-adapter/instagram-metadata.service.ts:97-104 | A missing `set-cookie` header fails with `Failed to obtain CSRF: CSRF token not found in response headers`. An empty cookie list fails inside the same wrapper. Parsing succeeds iff there is at least one cookie. A parsed token contains no `;` and is no longer than the first cookie. |
| InstagramMetadata.GetCsrfToken | src/adapters/instagram-adapter/instagram-metadata.service.ts:89-110 | Every failure, including a failed root-page GET, carries the `Failed to obtain CSRF: ` prefix around the original message. A root-page reply is parsed from its `set-cookie` header by `ParseCsrfCookies`. |
| InstagramMetadata.CsrfFromFirstCookie | src/adapters/instagram-adapter/instagram-metadata.service.ts:103-104 | A first cookie `csrftoken=<v>; <attributes>` yields the token `v`, whatever other cookies follow. |
| InstagramMetadata.CsrfOfFirstCookie | src/adapters/instagram-adapter/instagram-metadata.service.ts:103-104 | For any first cookie, the token is that cookie's text before its first `;` (all of it when there is none), with the first `csrftoken=` cut out. The cookies after it play no part. |
| InstagramMetadata.CsrfTakesFirstCookieEvenIfOther | src/adapters/instagram-adapter/instagram-metadata.service.ts:103-104 | The first cookie is used without a search: `["mid=abc", "csrftoken=t"]` yields the token `mid=abc`. |
| InstagramMetadata.Describe | src/adapters/instagram-adapter/instagram-metadata.service.ts:184-187 | The media type is video iff `is_video`. The URL is then `video_url`, otherwise `display_url`. |
| InstagramMetadata.CreateOutputData | src/adapters/instagram-adapter/instagram-metadata.service.ts:175-202 | A sidecar (`__typename == "XDTGraphSidecar"`) with children is described by its first child only. A sidecar with an empty child list fails with the `Failed to create output data: ` prefix. Anything else is described by its top-level fields. |
| InstagramMetadata.Attempt | src/adapters/instagram-adapter/instagram-metadata.service.ts:132-158 | One attempt is a root-page GET, followed by a POST iff a token was obtained. The POST carries that attempt's own token. A CSRF failure is the attempt's failure. The attempt fetches media iff it obtained a token and the body holds media, and that media is the body's. A body without media is the unsupported-media failure. Any other answer keeps its message. It is retryable iff the token was obtained and the answer is an HTTP error with status 429 or 403. The `retry-after` carried over is that of the answer. |
| InstagramMetadata.Conclude | src/adapters/instagram-adapter/instagram-metadata.service.ts:169-171 | A request that stops succeeds iff the attempt fetched media, and then returns that media. Otherwise it fails with `Failed instagram request: ` followed by the attempt's own message. |
| InstagramMetadata.InstagramRequest | src/adapters/instagram-adapter/instagram-metadata.service.ts:116-173 | Every failure carries the `Failed instagram request: ` prefix. At most `max(retries, 0) + 1` GraphQL POSTs are sent: a negative `retries` still allows the first POST. |
| InstagramMetadata.RequestStep | src/adapters/instagram-adapter/instagram-metadata.service.ts:153-167 | A 429/403 with `retries > 0` waits once, then returns the result of the request with `retries - 1` and `delay * 2` from the next attempt. Any other attempt concludes the request without a wait. The request's trace is the attempt's trace, then the wait and the rest's trace when it retries, and the attempt's trace alone otherwise. |
| InstagramMetadata.BackoffClosedForm | src/adapters/instagram-adapter/instagram-metadata.service.ts:161-166 | Wait `j` of a retry sequence lasts `retry-after`×1000 ms when that header was sent, otherwise `delay`×2^j ms. |
| InstagramMetadata.RetrySchedule | src/adapters/instagram-adapter/instagram-metadata.service.ts:153-167 | The number of waits never exceeds the retry budget, and the waits follow the doubling backoff. |
| InstagramMetadata.RetriedAttemptsThrottled | src/adapters/instagram-adapter/instagram-metadata.service.ts:153-160 | Only 429/403 answers are retried: every attempt before a wait obtained its token and was answered 429 or 403. |
| InstagramMetadata.RetryOutcome | src/adapters/instagram-adapter/instagram-metadata.service.ts:145-171 | The request's result is the conclusion of the attempt made after the last wait. |
| InstagramMetadata.LastAttemptThrottledOnlyAtBudget | src/adapters/instagram-adapter/instagram-metadata.service.ts:155-160 | The attempt after the last wait is a 429/403 only when the whole retry budget has been spent. |
| InstagramMetadata.FreshTokenPerPost | src/adapters/instagram-adapter/instagram-metadata.service.ts:132-145 | Every GraphQL POST immediately follows its own root-page GET. The POST carries the token of its own attempt: the one numbered by the waits before it. So a CSRF token is never reused across attempts. |
| InstagramMetadata.ConstantThrottleExhausts | src/adapters/instagram-adapter/instagram-metadata.service.ts:153-171 | Under a constant 429/403 the request waits exactly `retries` times, sends exactly `retries + 1` POSTs, and fails. |
| InstagramMetadata.CsrfFailureIsNotRetried | src/adapters/instagram-adapter/instagram-metadata.service.ts:105-108 | A CSRF failure is not an HTTP error. The request ends after the root-page GET, with no POST, no retry and the doubly prefixed message. |
| InstagramMetadata.MissingMediaIsNotRetried | src/adapters/instagram-adapter/instagram-metadata.service.ts:146-150 | A body without `xdt_shortcode_media` fails with `Only posts/reels supported, check if your link is valid` after exactly one POST. |
| InstagramMetadata.RetryThenSucceed | src/adapters/instagram-adapter/instagram-metadata.service.ts:161-166 | One 429 with `retry-after: 1` followed by media gives a success after a single 1000 ms wait and two POSTs. |
| InstagramMetadata.InstagramGetUrl | src/adapters/instagram-adapter/instagram-metadata.service.ts:36-61 | The extraction is redirect, then shortcode, then request, then output. At most `max(retries, 0) + 1` POSTs are sent. The redirect GET is made iff the link is a share link. Redirect errors propagate unchanged, and a missing shortcode fails before any POST. Once the redirect and the shortcode succeed, the trace is the redirect's followed by the request's. The result is then the request's error, unchanged, or the output selected from the fetched media. |
| InstagramMetadata.ExtractionDecidedByLastAttempt | src/adapters/instagram-adapter/instagram-metadata.service.ts:36-61 | Once the redirect and the shortcode succeed, the attempt after the last wait decides the extraction. Fetched media goes through output selection; any other outcome is the request's prefixed failure. |
| InstagramMetadata.DefaultInstagramGetUrl | src/adapters/instagram-adapter/instagram-metadata.service.ts:38 | With the default policy (5 retries, 1000 ms), at most 6 GraphQL POSTs are sent. |
| InstagramMetadata.MissingCookieHeaderFails | src/adapters/instagram-adapter/instagram-metadata.service.ts:99-101 | A root page without `set-cookie` fails the whole extraction after one GET, with `Failed instagram request: Failed to obtain CSRF: CSRF token not found in response headers`. |
| InstagramAdapter.GetFileUrl | src/adapters/instagram-adapter/instagram-adapter.service.ts:14-31 | The metadata service is called with the URL as given. A success is a one-element `remote` result holding the metadata URL, for images as for videos. A failure is rethrown unchanged. |
| YtDlAdapter.TooLongExactly | src/adapters/yt-dl-adapter/yt-dl-adapter.service.ts:95-98 | The gate rejects exactly the known durations above 180 seconds. The `!== 0` clause never matters, and a NaN duration passes. |
| YtDlAdapter.DownloadLocalFile | src/adapters/yt-dl-adapter/yt-dl-adapter.service.ts:66-165 | The effects are always a prefix of directory, metadata, download (5-minute timeout), file check, split. The download runs iff the directory, the metadata query and the gate pass. Each error has its wrapper: a directory failure is `Directory access error: `; a rejection is `Failed to parse file size: File duration is above 180 seconds, skipping download`. A metadata process failure is unwrapped; a missing file is `Failed to download video: Downloaded file not accessible: `; any failure after the download starts carries `Failed to download video: `. A success runs every step and returns the splitter's chunks unchanged. For each step that can fail, the result is pinned exactly: the effects stop at that step and the error is its message under the wrappers above. |
| YtDlAdapter.TooLongMessageText | src/adapters/yt-dl-adapter/yt-dl-adapter.service.ts:99 | The gate's message reads `File duration is above 180 seconds, skipping download`. |
| YtDlAdapter.StripWww | src/adapters/yt-dl-adapter/yt-dl-adapter.service.ts:170 | One leading `www.` is removed, and a hostname without it is unchanged. |
| YtDlAdapter.GenerateFileName | src/adapters/yt-dl-adapter/yt-dl-adapter.service.ts:167-176 | The name is `<host without www.>_<timestamp>.mp4`, or `video_<timestamp>.mp4` when the URL does not parse. It always ends in `.mp4`. |
| YtDlAdapter.FileNameDeterminesTimestamp | src/adapters/yt-dl-adapter/yt-dl-adapter.service.ts:171-172 | Two names generated for the same URL are equal only if their timestamps are, so the timestamp can be read back from the name. |
| YtDlAdapter.GetFileUrl | src/adapters/yt-dl-adapter/yt-dl-adapter.service.ts:48-64 | The download's chunk paths become a `local` result. Errors are rethrown unchanged, with the same effects. |
| DownloadProcessor.Lookup | src/download-processor/download-processor.service.ts:71 | `Map.get` finds nothing iff the host is not a key. Otherwise it returns the adapter of an entry with that exact key. |
| DownloadProcessor.DownloadersDistinct | src/download-processor/download-processor.service.ts:16-32 | The 15 hostnames of the table are pairwise distinct. |
| DownloadProcessor.InstagramEntriesFirst | src/download-processor/download-processor.service.ts:17-31 | Exactly the first two entries route to Instagram, and the other 13 to yt-dlp. |
| DownloadProcessor.SupportedDomains | src/download-processor/download-processor.service.ts:77-79 | `getSupportedDomains` lists the 15 hostnames, each once, in insertion order. |
| DownloadProcessor.InstagramDomainRoutes | src/download-processor/download-processor.service.ts:17-18 | `instagram.com` and `www.instagram.com` are routed to the Instagram adapter. |
| DownloadProcessor.RouteTable | src/download-processor/download-processor.service.ts:16-32 | A hostname routes to Instagram iff it is one of the two Instagram hostnames. It routes to yt-dlp iff it is listed and not Instagram, and to nothing iff it is unlisted. |
| DownloadProcessor.ValidateUrl | src/download-processor/download-processor.service.ts:60-66 | A URL passes iff the parser accepts it. Otherwise the error is `Invalid URL format: <url>`. |
| DownloadProcessor.GetDownloader | src/download-processor/download-processor.service.ts:68-75 | A downloader is found iff the URL parses and its exact hostname is listed. It is the Instagram one iff the hostname is an Instagram hostname. |
| DownloadProcessor.ProcessUrl | src/download-processor/download-processor.service.ts:35-58 | An invalid URL throws `Invalid URL format: <url>` without any call. An unlisted host gives `null` without any call. A listed host calls exactly its mapped adapter, once, with the unchanged URL. The adapter's `urls` and `type`, or its error, are passed through unchanged. |
| DownloadProcessor.NullMeansUnsupported | src/download-processor/download-processor.service.ts:41-46 | `null` comes only from a URL that parses and whose hostname is not listed. |
| BotUpdate.FirstMatch | src/bot/bot.update.ts:112-113 | The regular expression's search finds nothing iff no position matches. Otherwise it finds the leftmost matching position. |
| BotUpdate.MatchedText | src/bot/bot.update.ts:112-114 | The text matched at a position is a substring there. It starts with `https://` or `http://` plus at least one character, contains no whitespace, and is followed by whitespace or the end. |
| BotUpdate.ExtractUrl | src/bot/bot.update.ts:111-115 | There is no URL iff nowhere in the text does `http://` or `https://` precede a non-whitespace character. A URL found starts with a scheme, contains no whitespace, and is the leftmost, maximal match. |
| BotUpdate.ExtractUrlUnique | src/bot/bot.update.ts:111-115 | Any string that is a leftmost, maximal, whitespace-free scheme match in the text is the extracted URL. |
| BotUpdate.MatchedTextUnique | src/bot/bot.update.ts:112 | A whitespace-free scheme string at a position, followed by whitespace or the end, is the match there. |
| BotUpdate.FlattenVideos | src/bot/bot.update.ts:37-54 | The loop sends every iteration's video, in order. |
| BotUpdate.FlattenTexts | src/bot/bot.update.ts:39-45 | The loop sends every iteration's `PART` label, in order, and no other text. |
| BotUpdate.ReplyPlanContent | src/bot/bot.update.ts:36-74 | For n URLs the videos are the n payloads in URL order: the file (name and source) for a local result, the URL for a remote one. The texts are `PART 1 of n` … `PART n of n` iff n > 1. The plan has 2n replies when n > 1 and n otherwise. Reply by reply: when n > 1, reply 2i is `PART i+1 of n` and reply 2i+1 is video i; otherwise reply i is video i. Every reply is threaded to the message. |
| BotUpdate.FlattenLabelled | src/bot/bot.update.ts:37-72 | In the loop over labelled iterations, each label is sent immediately before its own video: label, video, label, video, … |
| BotUpdate.LocalRemoteSamePlan | src/bot/bot.update.ts:36-74 | A local and a remote result with the same URLs get the same replies, except for the video payload's shape. |
| BotUpdate.ErrorReply | src/bot/bot.update.ts:83-96 | The error reply is the generic apology text. It is threaded to the message iff the message has a (truthy) id. |
| BotUpdate.OnMessage | src/bot/bot.update.ts:14-98 | A non-text message, or text without a URL, causes no processor call and no reply. Otherwise exactly the extracted URL is processed. A result is answered with its reply plan. `null` or a thrown error yields exactly one error reply. A send that fails cuts the plan after that send and adds the error reply. |
| BotUpdate.PlanHasNoErrorText | src/bot/bot.update.ts:40 | The only texts of a reply plan are `PART` labels, never the apology. |
| BotUpdate.ErrorReplyOnlyLast | src/bot/bot.update.ts:77-96 | The error reply is sent at most once, and only as the last reply. |
| Pipeline.UnsupportedSiteGetsErrorReply | src/bot/bot.update.ts:33-34 | A link to an unlisted site calls no downloader and ends in the single error reply, because the `null` result cannot be destructured. |
| Pipeline.UnparseableLinkGetsErrorReply | src/download-processor/download-processor.service.ts:39 | A matched link the URL parser rejects calls no downloader and ends in the single error reply. |
| Pipeline.InstagramPostGetsOneVideo | src/bot/bot.update.ts:55-73 | An Instagram link whose adapter returns one URL calls the Instagram adapter once. It is answered with exactly one video reply carrying that URL, threaded to the message, with no `PART` label. |

## Left out

- HTTP through axios is reduced to scripted answers: the share-link GET, the root-page GET and the GraphQL POST. The form encoding (`qs`), `doc_id`, the request headers and the endpoint URL are constants of the request and do not affect its logic.
- InstagramMetadata.InstagramRequest: the `retry-after` header arrives already parsed as an optional integer. A present but non-numeric header (NaN after `parseInt`, then a `setTimeout` of NaN) is floating-point behaviour and is not modelled.
- InstagramMetadata.InstagramRequest: the `instanceof Error` / `'Unknown error'` fallbacks are not modelled. Every error in the model carries a message.
- The waits of the retry loop are recorded as durations in the trace. The timers themselves are not modelled.
- The `yt-dlp` subprocesses, `fs.mkdir`/`access`/`stat` and the chunk splitter (`VideoProcessingService`, which is not part of this model) are reduced to success-or-failure inputs. The splitter returns a list of paths.
- The debugging `readdir` listing after a failed download only logs, so it is left out.
- YtDlAdapter.DownloadLocalFile: `path.join` is modelled as `dir + "/" + name`. Its normalisation of `.`, `..` and duplicate slashes is not modelled.
- The WHATWG `URL` parser is an opaque function (`UrlParser`). Its scheme rules, hostname lower-casing and port handling are not modelled. The same parser is given to every component.
- `Date.now()` is a parameter of `YtDlAdapter.GenerateFileName` and `YtDlAdapter.GetFileUrl`.
- Logging is left out, including the 100-character truncation of the received message.
- `isTextMessage`, a run-time type test over `any`, is replaced by the `Message` datatype.
- BotUpdate.OnMessage: if the error reply itself is rejected by the chat API, `onMessage` rejects. The model records the attempted error reply and stops there.
- BotUpdate.ExtractUrl: JavaScript strings are UTF-16 code units and Dafny strings are sequences of Unicode scalar values. Text outside the Basic Multilingual Plane is indexed differently; that does not change which characters `\s` matches.
- The health check, configuration, `main.ts`, the NestJS modules, the DTO validators and the e2e test are bootstrap and wiring, not pipeline logic.
- Concurrency is not modelled, including concurrent messages and file-name collisions between simultaneous downloads.

=== FILE: bot_update.dfy ===
/** `BotUpdate.onMessage`: find the first link in a chat message, hand it to
    the download processor and answer with the videos, or with one generic
    error reply. Sending is modelled as the list of replies attempted. */
module BotUpdate {
  import opened Wrappers
  import opened Strings
  import opened DownloadTypes

  // ---------------------------------------------------------------------
  // extractUrl: the leftmost match of /https?:\/\/[^\s]+/
  // ---------------------------------------------------------------------

  /** The characters of the JavaScript `\s` class, as code points. */
  predicate IsJsWhitespace(c: char)
  {
    c == '\t' || c == '\n' || c == '\U{B}' || c == '\U{C}' || c == '\r' || c == ' ' ||
    c == '\U{A0}' || c == '\U{1680}' || ('\U{2000}' <= c <= '\U{200A}') ||
    c == '\U{2028}' || c == '\U{2029}' || c == '\U{202F}' || c == '\U{205F}' ||
    c == '\U{3000}' || c == '\U{FEFF}'
  }

  const Https: string := "https://"
  const Http: string := "http://"

  /** `pat` occurs in `text` at index `i`. */
  predicate StartsAt(text: string, i: nat, pat: string)
  {
    i + |pat| <= |text| && text[i..i + |pat|] == pat
  }

  /** `scheme` at `i`, followed by at least one non-whitespace character. */
  predicate SchemeMatchAt(text: string, i: nat, scheme: string)
  {
    StartsAt(text, i, scheme) && i + |scheme| < |text| && !IsJsWhitespace(text[i + |scheme|])
  }

  /** The regular expression can match starting at `i`. */
  predicate MatchAt(text: string, i: nat)
  {
    SchemeMatchAt(text, i, Https) || SchemeMatchAt(text, i, Http)
  }

  /** Length of the scheme the match at `i` uses; `https?` tries the `s`
      first. */
  function SchemeLength(text: string, i: nat): (n: nat)
    requires MatchAt(text, i)
    ensures n == 7 || n == 8
    ensures SchemeMatchAt(text, i, text[i..i + n])
  {
    if SchemeMatchAt(text, i, Https) then |Https| else |Http|
  }

  /** End of the maximal run of non-whitespace starting at `j`. */
  function RunEnd(text: string, j: nat): (k: nat)
    requires j <= |text|
    ensures j <= k <= |text|
    ensures forall m :: j <= m < k ==> !IsJsWhitespace(text[m])
    ensures k == |text| || IsJsWhitespace(text[k])
    decreases |text| - j
  {
    if j == |text| || IsJsWhitespace(text[j]) then j else RunEnd(text, j + 1)
  }

  /** The leftmost position at or after `i` where the expression matches. */
  function FirstMatch(text: string, i: nat): (r: Option<nat>)
    requires i <= |text|
    ensures r.None? <==> forall p :: i <= p < |text| ==> !MatchAt(text, p)
    ensures r.Some? ==> i <= r.value < |text| && MatchAt(text, r.value) &&
                        forall p :: i <= p < r.value ==> !MatchAt(text, p)
    decreases |text| - i
  {
    if i == |text| then None
    else if MatchAt(text, i) then Some(i)
    else FirstMatch(text, i + 1)
  }

  /** A string that starts with `scheme` and has at least one character after
      it (whitespace is ruled out separately, where a match is described). */
  predicate SchemeUrl(u: string, scheme: string)
  {
    |scheme| < |u| && u[..|scheme|] == scheme
  }

  /** Neither scheme contains a whitespace character. */
  lemma SchemesHaveNoWhitespace()
    ensures forall m :: 0 <= m < |Https| ==> !IsJsWhitespace(Https[m])
    ensures forall m :: 0 <= m < |Http| ==> !IsJsWhitespace(Http[m])
  {
    forall m | 0 <= m < |Https| ensures !IsJsWhitespace(Https[m]) {
      if m == 0 {} else if m == 1 {} else if m == 2 {} else if m == 3 {}
      else if m == 4 {} else if m == 5 {} else if m == 6 {} else if m == 7 {}
    }
    forall m | 0 <= m < |Http| ensures !IsJsWhitespace(Http[m]) {
      if m == 0 {} else if m == 1 {} else if m == 2 {} else if m == 3 {}
      else if m == 4 {} else if m == 5 {} else if m == 6 {}
    }
  }

  /** The text matched at `p`: the scheme and the maximal run of
      non-whitespace after it. */
  function MatchedText(text: string, p: nat): (u: string)
    requires MatchAt(text, p)
    ensures p + |u| <= |text| && text[p..p + |u|] == u
    ensures p + |u| == |text| || IsJsWhitespace(text[p + |u|])
    ensures SchemeUrl(u, Https) || SchemeUrl(u, Http)
    ensures forall m :: 0 <= m < |u| ==> !IsJsWhitespace(u[m])
  {
    var n := SchemeLength(text, p);
    var e := RunEnd(text, p + n);
    var u := text[p..e];
    assert u[..n] == text[p..p + n];
    SchemesHaveNoWhitespace();
    assert forall m :: 0 <= m < n ==> u[m] == text[p..p + n][m];
    assert forall m :: n <= m < |u| ==> u[m] == text[p + m];
    u
  }

  /** `extractUrl`: `None` iff the expression matches nowhere; otherwise the
      leftmost match, which starts with a scheme, contains no whitespace and
      is followed by whitespace or the end of the text. */
  function ExtractUrl(text: string): (r: Option<string>)
    ensures r.None? <==> forall p :: 0 <= p < |text| ==> !MatchAt(text, p)
    ensures r.Some? ==> SchemeUrl(r.value, Https) || SchemeUrl(r.value, Http)
    ensures r.Some? ==> forall m :: 0 <= m < |r.value| ==> !IsJsWhitespace(r.value[m])
    ensures r.Some? ==> exists p :: LeftmostMaximalAt(text, p, r.value)
  {
    match FirstMatch(text, 0)
    case None => None
    case Some(p) =>
      var u := MatchedText(text, p);
      assert LeftmostMaximalAt(text, p, u);
      Some(u)
  }

  /** `u` occurs in `text` at `p`, no match starts before `p`, and `u` runs up
      to whitespace or the end of the text. */
  ghost predicate LeftmostMaximalAt(text: string, p: nat, u: string)
  {
    p + |u| <= |text| && text[p..p + |u|] == u &&
    (forall q :: 0 <= q < p ==> !MatchAt(text, q)) &&
    (p + |u| == |text| || IsJsWhitespace(text[p + |u|]))
  }

  /** The leftmost, maximal match is unique: whatever string `u` satisfies
      the properties of a result is the result. */
  lemma ExtractUrlUnique(text: string, p: nat, u: string)
    requires LeftmostMaximalAt(text, p, u)
    requires SchemeUrl(u, Https) || SchemeUrl(u, Http)
    requires forall m :: 0 <= m < |u| ==> !IsJsWhitespace(u[m])
    ensures ExtractUrl(text) == Some(u)
  {
    MatchedTextUnique(text, p, u);
    var r := FirstMatch(text, 0);
    assert r.Some? && r.value <= p;
  }

  /** Given where a match starts, its text is determined. */
  lemma MatchedTextUnique(text: string, p: nat, u: string)
    requires p + |u| <= |text| && text[p..p + |u|] == u
    requires p + |u| == |text| || IsJsWhitespace(text[p + |u|])
    requires SchemeUrl(u, Https) || SchemeUrl(u, Http)
    requires forall m :: 0 <= m < |u| ==> !IsJsWhitespace(u[m])
    ensures MatchAt(text, p) && MatchedText(text, p) == u
  {
    if SchemeUrl(u, Https) {
      SchemeOfUrlAt(text, p, u, Https);
    } else {
      SchemeOfUrlAt(text, p, u, Http);
      HttpUrlIsNotHttps(text, p, u);
    }
    RunEndOfRun(text, p + SchemeLength(text, p), p + |u|, u, p);
  }

  /** A URL with a scheme, found in the text, is a match with that scheme. */
  lemma SchemeOfUrlAt(text: string, p: nat, u: string, scheme: string)
    requires p + |u| <= |text| && text[p..p + |u|] == u
    requires SchemeUrl(u, scheme)
    requires forall m :: 0 <= m < |u| ==> !IsJsWhitespace(u[m])
    ensures SchemeMatchAt(text, p, scheme)
  {
    assert text[p..p + |scheme|] == u[..|scheme|];
    assert text[p + |scheme|] == u[|scheme|];
  }

  /** A URL that starts with `http://` is not found as `https://`: its fifth
      character is `:`, not `s`. */
  lemma HttpUrlIsNotHttps(text: string, p: nat, u: string)
    requires p + |u| <= |text| && text[p..p + |u|] == u
    requires SchemeUrl(u, Http)
    ensures !StartsAt(text, p, Https)
  {
    assert u[4] == Http[4] == ':';
    assert text[p + 4] == u[4];
    assert Https[4] == 's';
  }

  /** A run of non-whitespace that stops at whitespace or at the end is where
      `RunEnd` stops. */
  lemma {:induction false} RunEndOfRun(text: string, j: nat, k: nat, u: string, p: nat)
    requires p <= j <= k <= |text| && k == p + |u| && text[p..k] == u
    requires forall m :: 0 <= m < |u| ==> !IsJsWhitespace(u[m])
    requires k == |text| || IsJsWhitespace(text[k])
    ensures RunEnd(text, j) == k
    decreases k - j
  {
    if j < k {
      assert text[j] == u[j - p];
      RunEndOfRun(text, j + 1, k, u, p);
    }
  }

  // ---------------------------------------------------------------------
  // onMessage: the reply plan
  // ---------------------------------------------------------------------

  /** `ctx.message`: anything that is not a text message is ignored. */
  datatype Message = OtherMessage | TextMessage(messageId: Option<int>, text: string)

  /** The first argument of `replyWithVideo`. */
  datatype VideoSource = LocalFile(filename: string, source: string) | RemoteUrl(url: string)

  /** `ctx.reply(text, …)` and `ctx.replyWithVideo(video, …)`; `replyTo` is
      the `reply_parameters.message_id`, if any. */
  datatype Action = SendText(text: string, replyTo: Option<int>) | SendVideo(video: VideoSource, replyTo: Option<int>)

  /** The generic apology, opening with a cross mark. */
  const ErrorText: string :=
    "❌" + " Sorry, I encountered an error while processing your request. Please try again later."

  /** `PART i of n`, numbers in decimal. */
  function PartLabel(i: nat, n: nat): string
  {
    "PART " + NatToString(i) + " of " + NatToString(n)
  }

  /** The video payload: a local result sends the file (name and source are
      the path), a remote one sends the URL. */
  function Payload(kind: ResultKind, u: string): (v: VideoSource)
    ensures kind == Local ==> v == LocalFile(u, u)
    ensures kind == Remote ==> v == RemoteUrl(u)
  {
    match kind
    case Local => LocalFile(u, u)
    case Remote => RemoteUrl(u)
  }

  /** One iteration of the reply loop: an optional `PART` label, then the
      video. */
  datatype Step = Step(part: Option<string>, video: VideoSource)

  /** The loop iterations for a result: URL `i` becomes video `i`, labelled
      `PART i+1 of n` when there are n > 1 URLs. */
  function PlanSteps(res: DownloadResult): (steps: seq<Step>)
    ensures |steps| == |res.urls|
  {
    var n := |res.urls|;
    seq(n, i requires 0 <= i < n =>
      Step(if n > 1 then Some(PartLabel(i + 1, n)) else None, Payload(res.kind, res.urls[i])))
  }

  /** The replies one iteration sends, threaded to `id`. */
  function StepActions(s: Step, id: Option<int>): seq<Action>
  {
    (if s.part.Some? then [SendText(s.part.value, id)] else []) + [SendVideo(s.video, id)]
  }

  /** The replies of all iterations, in order. */
  function Flatten(steps: seq<Step>, id: Option<int>): (plan: seq<Action>)
    ensures |plan| >= |steps|
  {
    if steps == [] then [] else StepActions(steps[0], id) + Flatten(steps[1..], id)
  }

  /** The loop of `onMessage` over a result. */
  function ReplyPlan(res: DownloadResult, id: Option<int>): seq<Action>
  {
    Flatten(PlanSteps(res), id)
  }

  /** The videos a plan sends, in order. */
  function Videos(plan: seq<Action>): (vs: seq<VideoSource>)
    ensures |vs| <= |plan|
  {
    if plan == [] then []
    else (if plan[0].SendVideo? then [plan[0].video] else []) + Videos(plan[1..])
  }

  /** The texts a plan sends, in order. */
  function Texts(plan: seq<Action>): (ts: seq<string>)
    ensures |ts| <= |plan|
  {
    if plan == [] then []
    else (if plan[0].SendText? then [plan[0].text] else []) + Texts(plan[1..])
  }

  /** The labels of the iterations that have one, in order. */
  function StepLabels(steps: seq<Step>): seq<string>
  {
    if steps == [] then []
    else (if steps[0].part.Some? then [steps[0].part.value] else []) + StepLabels(steps[1..])
  }

  function StepVideos(steps: seq<Step>): (vs: seq<VideoSource>)
    ensures |vs| == |steps|
    ensures forall i :: 0 <= i < |steps| ==> vs[i] == steps[i].video
  {
    seq(|steps|, i requires 0 <= i < |steps| => steps[i].video)
  }

  /** The payloads of a result's URLs, in order. */
  function Payloads(kind: ResultKind, urls: seq<string>): (vs: seq<VideoSource>)
    ensures |vs| == |urls|
    ensures forall i :: 0 <= i < |urls| ==> vs[i] == Payload(kind, urls[i])
  {
    seq(|urls|, i requires 0 <= i < |urls| => Payload(kind, urls[i]))
  }

  /** `PART 1 of n` … `PART n of n`. */
  function Labels(n: nat): (ls: seq<string>)
    ensures |ls| == n
    ensures forall i :: 0 <= i < n ==> ls[i] == PartLabel(i + 1, n)
  {
    seq(n, i requires 0 <= i < n => PartLabel(i + 1, n))
  }

  lemma {:induction false} VideosAppend(a: seq<Action>, b: seq<Action>)
    ensures Videos(a + b) == Videos(a) + Videos(b)
    decreases |a|
  {
    if a == [] {
      assert a + b == b;
    } else {
      assert (a + b)[0] == a[0];
      assert (a + b)[1..] == a[1..] + b;
      VideosAppend(a[1..], b);
    }
  }

  lemma {:induction false} TextsAppend(a: seq<Action>, b: seq<Action>)
    ensures Texts(a + b) == Texts(a) + Texts(b)
    decreases |a|
  {
    if a == [] {
      assert a + b == b;
    } else {
      assert (a + b)[0] == a[0];
      assert (a + b)[1..] == a[1..] + b;
      TextsAppend(a[1..], b);
    }
  }

  /** Flattening keeps every iteration's video, in order. */
  lemma {:induction false} FlattenVideos(steps: seq<Step>, id: Option<int>)
    ensures Videos(Flatten(steps, id)) == StepVideos(steps)
    decreases |steps|
  {
    if steps != [] {
      var head := StepActions(steps[0], id);
      FlattenVideos(steps[1..], id);
      VideosAppend(head, Flatten(steps[1..], id));
      if steps[0].part.Some? {
        assert head[1..] == [SendVideo(steps[0].video, id)];
      }
      assert Videos(head) == [steps[0].video];
      StepVideosCons(steps);
    }
  }

  lemma StepVideosCons(steps: seq<Step>)
    requires steps != []
    ensures StepVideos(steps) == [steps[0].video] + StepVideos(steps[1..])
  {
    var rhs := [steps[0].video] + StepVideos(steps[1..]);
    assert forall i :: 0 <= i < |steps| ==> rhs[i] == steps[i].video;
  }

  /** Flattening keeps every iteration's label, in order, and sends no other
      text. */
  lemma {:induction false} FlattenTexts(steps: seq<Step>, id: Option<int>)
    ensures Texts(Flatten(steps, id)) == StepLabels(steps)
    decreases |steps|
  {
    if steps != [] {
      var head := StepActions(steps[0], id);
      FlattenTexts(steps[1..], id);
      TextsAppend(head, Flatten(steps[1..], id));
      if steps[0].part.Some? {
        assert head[1..] == [SendVideo(steps[0].video, id)];
      }
    }
  }

  /** Every reply of a flattened plan is threaded to `id`, and every text
      it sends is the label of some iteration. */
  lemma {:induction false} FlattenMembers(steps: seq<Step>, id: Option<int>)
    ensures |Flatten(steps, id)| == |steps| + |StepLabels(steps)|
    ensures forall a :: a in Flatten(steps, id) ==> a.replyTo == id
    ensures forall a :: a in Flatten(steps, id) && a.SendText? ==>
              exists i :: 0 <= i < |steps| && steps[i].part == Some(a.text)
    decreases |steps|
  {
    if steps != [] {
      var head := StepActions(steps[0], id);
      var rest := Flatten(steps[1..], id);
      FlattenMembers(steps[1..], id);
      forall a: Action | a in head + rest
        ensures a.replyTo == id
        ensures a.SendText? ==> exists i :: 0 <= i < |steps| && steps[i].part == Some(a.text)
      {
        if a in head {
          assert a.SendText? ==> steps[0].part == Some(a.text);
        } else if a.SendText? {
          var i :| 0 <= i < |steps[1..]| && steps[1..][i].part == Some(a.text);
          assert steps[i + 1].part == Some(a.text);
        }
      }
    }
  }

  /** With every iteration labelled, the labels are all sent; with none
      labelled, no text is. */
  lemma {:induction false} StepLabelsUniform(steps: seq<Step>)
    ensures (forall i :: 0 <= i < |steps| ==> steps[i].part.Some?) ==>
              StepLabels(steps) == seq(|steps|, i requires 0 <= i < |steps| => steps[i].part.value)
    ensures (forall i :: 0 <= i < |steps| ==> steps[i].part.None?) ==> StepLabels(steps) == []
    decreases |steps|
  {
    if steps != [] {
      StepLabelsUniform(steps[1..]);
      if forall i :: 0 <= i < |steps| ==> steps[i].part.Some? {
        assert forall i :: 0 <= i < |steps[1..]| ==> steps[1..][i].part.Some? by {
          forall i | 0 <= i < |steps[1..]| ensures steps[1..][i].part.Some? {
            assert steps[1..][i] == steps[i + 1];
          }
        }
      }
      if forall i :: 0 <= i < |steps| ==> steps[i].part.None? {
        assert forall i :: 0 <= i < |steps[1..]| ==> steps[1..][i].part.None? by {
          forall i | 0 <= i < |steps[1..]| ensures steps[1..][i].part.None? {
            assert steps[1..][i] == steps[i + 1];
          }
        }
      }
    }
  }

  /** The reply plan for n URLs: the n videos in the order of the URLs, the
      labels `PART 1 of n` … `PART n of n` exactly when n > 1 (2n replies,
      otherwise n), each label immediately before its video, and every reply
      threaded to the message. */
  lemma {:induction false} ReplyPlanContent(res: DownloadResult, id: Option<int>)
    ensures Videos(ReplyPlan(res, id)) == Payloads(res.kind, res.urls)
    ensures Texts(ReplyPlan(res, id)) == if |res.urls| > 1 then Labels(|res.urls|) else []
    ensures |ReplyPlan(res, id)| == if |res.urls| > 1 then 2 * |res.urls| else |res.urls|
    ensures forall a :: a in ReplyPlan(res, id) ==> a.replyTo == id
    ensures |res.urls| > 1 ==>
              forall i :: 0 <= i < |res.urls| ==>
                ReplyPlan(res, id)[2 * i] == SendText(PartLabel(i + 1, |res.urls|), id) &&
                ReplyPlan(res, id)[2 * i + 1] == SendVideo(Payload(res.kind, res.urls[i]), id)
    ensures |res.urls| <= 1 ==>
              forall i :: 0 <= i < |res.urls| ==> ReplyPlan(res, id)[i] == SendVideo(Payload(res.kind, res.urls[i]), id)
  {
    var steps := PlanSteps(res);
    FlattenVideos(steps, id);
    FlattenTexts(steps, id);
    FlattenMembers(steps, id);
    PlanVideos(res);
    PlanLabels(res);
    PlanOrder(res, id);
  }

  /** Reply by reply: with n > 1, reply 2i is the label `PART i+1 of n` and
      reply 2i+1 is video i; otherwise reply i is video i. */
  lemma PlanOrder(res: DownloadResult, id: Option<int>)
    ensures |res.urls| > 1 ==>
              |ReplyPlan(res, id)| == 2 * |res.urls| &&
              forall i :: 0 <= i < |res.urls| ==>
                ReplyPlan(res, id)[2 * i] == SendText(PartLabel(i + 1, |res.urls|), id) &&
                ReplyPlan(res, id)[2 * i + 1] == SendVideo(Payload(res.kind, res.urls[i]), id)
    ensures |res.urls| <= 1 ==>
              |ReplyPlan(res, id)| == |res.urls| &&
              forall i :: 0 <= i < |res.urls| ==> ReplyPlan(res, id)[i] == SendVideo(Payload(res.kind, res.urls[i]), id)
  {
    var steps := PlanSteps(res);
    var n := |res.urls|;
    if n > 1 {
      FlattenLabelled(steps, id);
    } else {
      FlattenUnlabelled(steps, id);
    }
  }

  /** Steps that are all labelled flatten to label, video, label, video, … */
  lemma {:induction false} FlattenLabelled(steps: seq<Step>, id: Option<int>)
    requires forall i :: 0 <= i < |steps| ==> steps[i].part.Some?
    ensures |Flatten(steps, id)| == 2 * |steps|
    ensures forall i :: 0 <= i < |steps| ==>
              Flatten(steps, id)[2 * i] == SendText(steps[i].part.value, id) &&
              Flatten(steps, id)[2 * i + 1] == SendVideo(steps[i].video, id)
    decreases |steps|
  {
    if steps != [] {
      var head := StepActions(steps[0], id);
      var rest := Flatten(steps[1..], id);
      var f := Flatten(steps, id);
      assert forall i :: 0 <= i < |steps[1..]| ==> steps[1..][i] == steps[i + 1];
      FlattenLabelled(steps[1..], id);
      assert head == [SendText(steps[0].part.value, id), SendVideo(steps[0].video, id)];
      assert f == head + rest;
      forall i | 0 <= i < |steps|
        ensures f[2 * i] == SendText(steps[i].part.value, id)
        ensures f[2 * i + 1] == SendVideo(steps[i].video, id)
      {
        if i > 0 {
          assert f[2 * i] == rest[2 * (i - 1)];
          assert f[2 * i + 1] == rest[2 * (i - 1) + 1];
          assert steps[1..][i - 1] == steps[i];
        }
      }
    }
  }

  /** Steps without labels flatten to their videos alone, in order. */
  lemma {:induction false} FlattenUnlabelled(steps: seq<Step>, id: Option<int>)
    requires forall i :: 0 <= i < |steps| ==> steps[i].part.None?
    ensures |Flatten(steps, id)| == |steps|
    ensures forall i :: 0 <= i < |steps| ==> Flatten(steps, id)[i] == SendVideo(steps[i].video, id)
    decreases |steps|
  {
    if steps != [] {
      var rest := Flatten(steps[1..], id);
      var f := Flatten(steps, id);
      assert forall i :: 0 <= i < |steps[1..]| ==> steps[1..][i] == steps[i + 1];
      FlattenUnlabelled(steps[1..], id);
      assert StepActions(steps[0], id) == [SendVideo(steps[0].video, id)];
      assert f == [SendVideo(steps[0].video, id)] + rest;
      forall i | 0 <= i < |steps| ensures f[i] == SendVideo(steps[i].video, id) {
        if i > 0 {
          assert f[i] == rest[i - 1];
          assert steps[1..][i - 1] == steps[i];
        }
      }
    }
  }

  /** The iterations carry the URLs' payloads, in order. */
  lemma PlanVideos(res: DownloadResult)
    ensures StepVideos(PlanSteps(res)) == Payloads(res.kind, res.urls)
  {
  }

  /** The iterations are labelled `PART 1 of n` … `PART n of n` when n > 1,
      and not at all otherwise. */
  lemma PlanLabels(res: DownloadResult)
    ensures StepLabels(PlanSteps(res)) == if |res.urls| > 1 then Labels(|res.urls|) else []
  {
    var steps := PlanSteps(res);
    var n := |res.urls|;
    StepLabelsUniform(steps);
    if n > 1 {
      assert forall i :: 0 <= i < n ==> steps[i].part.Some?;
      assert seq(n, i requires 0 <= i < n => steps[i].part.value) == Labels(n);
    } else {
      assert forall i :: 0 <= i < n ==> steps[i].part.None?;
    }
  }

  /** The remote form of a reply: a local file becomes the URL of its
      source. */
  function AsRemote(a: Action): Action
  {
    match a
    case SendVideo(LocalFile(_, source), r) => SendVideo(RemoteUrl(source), r)
    case _ => a
  }

  function MapAsRemote(plan: seq<Action>): (m: seq<Action>)
    ensures |m| == |plan|
    ensures forall k :: 0 <= k < |plan| ==> m[k] == AsRemote(plan[k])
  {
    seq(|plan|, k requires 0 <= k < |plan| => AsRemote(plan[k]))
  }

  lemma {:induction false} FlattenAsRemote(ls: seq<Step>, rs: seq<Step>, id: Option<int>)
    requires |ls| == |rs|
    requires forall i :: 0 <= i < |ls| ==>
               rs[i].part == ls[i].part && AsRemote(SendVideo(ls[i].video, id)) == SendVideo(rs[i].video, id)
    ensures Flatten(rs, id) == MapAsRemote(Flatten(ls, id))
    decreases |ls|
  {
    if ls != [] {
      FlattenAsRemote(ls[1..], rs[1..], id);
      var lh := StepActions(ls[0], id);
      var lt := Flatten(ls[1..], id);
      assert MapAsRemote(lh + lt) == MapAsRemote(lh) + MapAsRemote(lt);
      assert StepActions(rs[0], id) == MapAsRemote(lh);
    }
  }

  /** A local and a remote result with the same URLs give the same replies,
      except that each local file becomes the URL it was read from. */
  lemma LocalRemoteSamePlan(urls: seq<string>, id: Option<int>)
    ensures ReplyPlan(DownloadResult(urls, Remote), id) ==
            MapAsRemote(ReplyPlan(DownloadResult(urls, Local), id))
  {
    FlattenAsRemote(PlanSteps(DownloadResult(urls, Local)), PlanSteps(DownloadResult(urls, Remote)), id);
  }

  /** The generic error reply, threaded to the message iff its id is present
      (a JavaScript truthy check, so an id of 0 counts as absent). */
  function ErrorReply(id: Option<int>): (a: Action)
    ensures a.SendText? && a.text == ErrorText
    ensures a.replyTo.Some? <==> id.Some? && id.value != 0
    ensures a.replyTo.Some? ==> a.replyTo == id
  {
    SendText(ErrorText, if id.Some? && id.value != 0 then id else None)
  }

  /** The processor returned a result rather than throwing or returning
      `null`. */
  predicate Delivers(out: Result<Option<DownloadResult>, string>)
  {
    out.Success? && out.value.Some?
  }

  /** What `onMessage` did: the URLs handed to the processor and the replies
      it attempted, in order. */
  datatype Handled = Handled(processed: seq<string>, actions: seq<Action>)

  /** `onMessage`. `process` is `processUrl` (`Success(None)` is `null`);
      `failingSend` is the index of the first reply of the plan that the chat
      API rejects, if any. A `null` result, a processor error or a rejected
      reply all end in the single generic error reply. */
  function OnMessage(msg: Message, process: string -> Result<Option<DownloadResult>, string>,
                     failingSend: Option<nat>): (h: Handled)
    ensures msg.OtherMessage? ==> h == Handled([], [])
    ensures msg.TextMessage? && ExtractUrl(msg.text).None? ==> h == Handled([], [])
    ensures msg.TextMessage? && ExtractUrl(msg.text).Some? ==> h.processed == [ExtractUrl(msg.text).value]
    ensures msg.TextMessage? && ExtractUrl(msg.text).Some? && Delivers(process(ExtractUrl(msg.text).value)) ==>
              var plan := ReplyPlan(process(ExtractUrl(msg.text).value).value.value, msg.messageId);
              if failingSend.Some? && failingSend.value < |plan|
              then h.actions == plan[..failingSend.value + 1] + [ErrorReply(msg.messageId)]
              else h.actions == plan
    ensures msg.TextMessage? && ExtractUrl(msg.text).Some? && !Delivers(process(ExtractUrl(msg.text).value)) ==>
              h.actions == [ErrorReply(msg.messageId)]
    ensures |h.processed| <= 1
  {
    match msg
    case OtherMessage => Handled([], [])
    case TextMessage(id, text) =>
      match ExtractUrl(text)
      case None => Handled([], [])
      case Some(url) =>
        match process(url)
        case Success(Some(res)) =>
          var plan := ReplyPlan(res, id);
          if failingSend.Some? && failingSend.value < |plan|
          then Handled([url], plan[..failingSend.value + 1] + [ErrorReply(id)])
          else Handled([url], plan)
        case _ => Handled([url], [ErrorReply(id)])
  }

  /** The only text a reply plan sends is a `PART` part, never the error
      text. */
  lemma PlanHasNoErrorText(res: DownloadResult, id: Option<int>)
    ensures forall a :: a in ReplyPlan(res, id) && a.SendText? ==> a.text != ErrorText
  {
    var steps := PlanSteps(res);
    FlattenMembers(steps, id);
    assert ErrorText[0] == '❌';
    forall a | a in ReplyPlan(res, id) && a.SendText? ensures a.text != ErrorText {
      var i :| 0 <= i < |steps| && steps[i].part == Some(a.text);
      assert a.text == PartLabel(i + 1, |res.urls|);
      assert a.text[0] == 'P';
    }
  }

  /** The error reply is sent at most once, and only as the last reply. */
  lemma ErrorReplyOnlyLast(msg: Message, process: string -> Result<Option<DownloadResult>, string>,
                           failingSend: Option<nat>)
    ensures var h := OnMessage(msg, process, failingSend);
            forall k :: 0 <= k < |h.actions| - 1 ==> h.actions[k] != ErrorReply(msg.messageId)
  {
    var h := OnMessage(msg, process, failingSend);
    if msg.TextMessage? && ExtractUrl(msg.text).Some? {
      match process(ExtractUrl(msg.text).value)
      case Success(Some(res)) =>
        var plan := ReplyPlan(res, msg.messageId);
        PlanHasNoErrorText(res, msg.messageId);
        forall k | 0 <= k < |h.actions| - 1 ensures h.actions[k] != ErrorReply(msg.messageId) {
          assert h.actions[k] == plan[k];
          assert plan[k] in plan;
        }
      case _ =>
    }
  }
}

=== FILE: download_processor.dfy ===
/** `DownloadProcessorService`: validates a URL, picks the downloader from
    its hostname and hands the URL over unchanged. */
module DownloadProcessor {
  import opened Wrappers
  import opened DownloadTypes

  /** The two downloaders behind the common interface. */
  datatype Adapter = Instagram | YtDl

  const InvalidUrlPrefix: string := "Invalid URL format: "

  /** The `downloaders` map, in insertion order: hostname to adapter. */
  const Downloaders: seq<(string, Adapter)> := [
    ("instagram.com", Instagram),
    ("www.instagram.com", Instagram),
    ("youtube.com", YtDl),
    ("www.youtube.com", YtDl),
    ("youtu.be", YtDl),
    ("tumblr.com", YtDl),
    ("www.tumblr.com", YtDl),
    ("twitter.com", YtDl),
    ("www.twitter.com", YtDl),
    ("x.com", YtDl),
    ("www.x.com", YtDl),
    ("tiktok.com", YtDl),
    ("www.tiktok.com", YtDl),
    ("facebook.com", YtDl),
    ("www.facebook.com", YtDl)
  ]

  /** The hostnames the Instagram adapter serves. */
  const InstagramDomains: seq<string> := ["instagram.com", "www.instagram.com"]

  /** Hostnames of a table, in order. */
  function Keys(table: seq<(string, Adapter)>): (ks: seq<string>)
    ensures |ks| == |table|
    ensures forall i :: 0 <= i < |table| ==> ks[i] == table[i].0
  {
    seq(|table|, i requires 0 <= i < |table| => table[i].0)
  }

  /** No hostname is listed twice. */
  predicate Distinct(s: seq<string>)
  {
    forall i, j :: 0 <= i < j < |s| ==> s[i] != s[j]
  }

  /** `Map.get`: the adapter stored under `host`, if any. */
  function Lookup(table: seq<(string, Adapter)>, host: string): (a: Option<Adapter>)
    ensures a.None? <==> host !in Keys(table)
    ensures a.Some? ==> exists i :: 0 <= i < |table| && table[i] == (host, a.value)
  {
    if table == [] then None
    else if table[0].0 == host then Some(table[0].1)
    else
      var a := Lookup(table[1..], host);
      assert Keys(table) == [table[0].0] + Keys(table[1..]);
      if a.Some? then
        var i :| 0 <= i < |table[1..]| && table[1..][i] == (host, a.value);
        assert table[i + 1] == (host, a.value);
        a
      else
        a
  }

  /** No hostname of the table repeats an earlier one: the first eight
      entries, then the rest. */
  lemma FreshBefore8()
    ensures forall i :: 0 <= i < 8 ==> Downloaders[i].0 !in Keys(Downloaders)[..i]
  {
    forall i | 0 <= i < 8 ensures Downloaders[i].0 !in Keys(Downloaders)[..i] {
      if i == 0 {}
      else if i == 1 {}
      else if i == 2 {}
      else if i == 3 {}
      else if i == 4 {}
      else if i == 5 {}
      else if i == 6 {}
      else if i == 7 {}
    }
  }

  lemma FreshFrom8()
    ensures forall i :: 8 <= i < |Downloaders| ==> Downloaders[i].0 !in Keys(Downloaders)[..i]
  {
    forall i | 8 <= i < |Downloaders| ensures Downloaders[i].0 !in Keys(Downloaders)[..i] {
      if i == 8 {}
      else if i == 9 {}
      else if i == 10 {}
      else if i == 11 {}
      else if i == 12 {}
      else if i == 13 {}
      else if i == 14 {}
    }
  }

  /** Every hostname in the table occurs once. */
  lemma DownloadersDistinct()
    ensures Distinct(Keys(Downloaders))
  {
    var ks := Keys(Downloaders);
    FreshBefore8();
    FreshFrom8();
    forall i, j | 0 <= i < j < |ks| ensures ks[i] != ks[j] {
      assert ks[i] == ks[..j][i];
    }
  }

  /** Only the first two entries route to Instagram. */
  lemma InstagramEntriesFirst()
    ensures forall i :: 0 <= i < |Downloaders| ==> (Downloaders[i].1 == Instagram <==> i < 2)
  {
    forall i | 2 <= i < |Downloaders| ensures Downloaders[i].1 == YtDl {
      if i == 2 {}
      else if i == 3 {}
      else if i == 4 {}
      else if i == 5 {}
      else if i == 6 {}
      else if i == 7 {}
      else if i == 8 {}
      else if i == 9 {}
      else if i == 10 {}
      else if i == 11 {}
      else if i == 12 {}
      else if i == 13 {}
      else if i == 14 {}
    }
  }

  /** `getSupportedDomains`: the 15 hostnames, each once, in insertion order. */
  function SupportedDomains(): (ds: seq<string>)
    ensures |ds| == 15
    ensures Distinct(ds)
    ensures forall i :: 0 <= i < |ds| ==> ds[i] == Downloaders[i].0
  {
    DownloadersDistinct();
    Keys(Downloaders)
  }

  /** A listed Instagram hostname is found at its own entry. */
  lemma InstagramDomainRoutes(host: string)
    requires host in InstagramDomains
    ensures Lookup(Downloaders, host) == Some(Instagram)
  {
    var ds := SupportedDomains();
    assert host == ds[0] || host == ds[1];
    var a := Lookup(Downloaders, host);
    var i :| 0 <= i < |Downloaders| && Downloaders[i] == (host, a.value);
    assert ds[i] == host;
  }

  /** Only an Instagram hostname reaches an Instagram entry. */
  lemma InstagramRouteDomain(host: string)
    ensures Lookup(Downloaders, host) == Some(Instagram) ==> host in InstagramDomains
  {
    if Lookup(Downloaders, host) == Some(Instagram) {
      InstagramEntriesFirst();
      var i :| 0 <= i < |Downloaders| && Downloaders[i] == (host, Instagram);
      assert i < 2;
    }
  }

  /** The lookup on the parsed hostname: the two Instagram hostnames go to the
      Instagram adapter, every other listed hostname to yt-dlp, and an
      unlisted one to no adapter. */
  lemma RouteTable(host: string)
    ensures Lookup(Downloaders, host) == Some(Instagram) <==> host in InstagramDomains
    ensures Lookup(Downloaders, host) == Some(YtDl) <==>
              host in SupportedDomains() && host !in InstagramDomains
    ensures Lookup(Downloaders, host).None? <==> host !in SupportedDomains()
  {
    assert SupportedDomains() == Keys(Downloaders);
    if host in InstagramDomains {
      InstagramDomainRoutes(host);
    }
    InstagramRouteDomain(host);
    OtherHostsGoElsewhere(Downloaders, host, InstagramDomains);
  }

  /** Whatever is listed and does not route to Instagram routes to yt-dlp. */
  lemma OtherHostsGoElsewhere(table: seq<(string, Adapter)>, host: string, instagram: seq<string>)
    requires Lookup(table, host) == Some(Instagram) <==> host in instagram
    ensures Lookup(table, host) == Some(YtDl) <==> host in Keys(table) && host !in instagram
  {
    var a := Lookup(table, host);
    if a.Some? {
      assert a.value.Instagram? || a.value.YtDl?;
      assert a == Some(a.value);
    }
  }

  /** `validateUrl`: passes iff the URL parses. */
  function ValidateUrl(url: string, parse: UrlParser): (o: Outcome<string>)
    ensures o.Pass? <==> parse(url).Some?
    ensures o.Fail? ==> o.error == InvalidUrlPrefix + url
  {
    if parse(url).Some? then Pass else Fail(InvalidUrlPrefix + url)
  }

  /** `getDownloader`: an exact-match lookup of the parsed hostname; an
      unparseable URL has no downloader. */
  function GetDownloader(url: string, parse: UrlParser): (a: Option<Adapter>)
    ensures a.Some? <==> parse(url).Some? && parse(url).value.hostname in SupportedDomains()
    ensures a.Some? ==> (a.value == Instagram <==> parse(url).value.hostname in InstagramDomains)
  {
    match parse(url)
    case None => None
    case Some(u) =>
      RouteTable(u.hostname);
      Lookup(Downloaders, u.hostname)
  }

  /** A downloader invocation, recorded so that "called once, with what" is
      observable. */
  datatype Call = Call(adapter: Adapter, url: string)

  /** What `processUrl` returns or throws (`Success(None)` is `null`), and the
      downloader calls it made. */
  datatype Processed = Processed(result: Result<Option<DownloadResult>, string>, calls: seq<Call>)

  /** The `getFileUrl` of the given adapter; both downloaders are parameters
      of the processor. */
  function Invoke(a: Adapter, url: string,
                  instagram: string -> Result<DownloadResult, string>,
                  ytdl: string -> Result<DownloadResult, string>): Result<DownloadResult, string>
  {
    match a
    case Instagram => instagram(url)
    case YtDl => ytdl(url)
  }

  /** `processUrl`: an invalid URL is rejected before routing, an unlisted
      hostname yields `null` without calling anything, and a listed one calls
      its adapter exactly once with the URL as given and passes the result or
      the error through. */
  function ProcessUrl(url: string, parse: UrlParser,
                      instagram: string -> Result<DownloadResult, string>,
                      ytdl: string -> Result<DownloadResult, string>): (p: Processed)
    ensures parse(url).None? ==> p == Processed(Failure(InvalidUrlPrefix + url), [])
    ensures parse(url).Some? && parse(url).value.hostname !in SupportedDomains() ==>
              p == Processed(Success(None), [])
    ensures parse(url).Some? && parse(url).value.hostname in SupportedDomains() ==>
              |p.calls| == 1 && p.calls[0].url == url &&
              (p.calls[0].adapter == Instagram <==> parse(url).value.hostname in InstagramDomains)
    ensures |p.calls| == 1 ==>
              var out := Invoke(p.calls[0].adapter, url, instagram, ytdl);
              (out.Success? ==> p.result == Success(Some(DownloadResult(out.value.urls, out.value.kind)))) &&
              (out.Failure? ==> p.result == Failure(out.error))
    ensures |p.calls| <= 1
  {
    match ValidateUrl(url, parse)
    case Fail(e) => Processed(Failure(e), [])
    case Pass =>
      match GetDownloader(url, parse)
      case None => Processed(Success(None), [])
      case Some(a) =>
        match Invoke(a, url, instagram, ytdl)
        case Success(d) => Processed(Success(Some(DownloadResult(d.urls, d.kind))), [Call(a, url)])
        case Failure(e) => Processed(Failure(e), [Call(a, url)])
  }

  /** `null` comes only from a valid URL whose hostname is not listed. */
  lemma NullMeansUnsupported(url: string, parse: UrlParser,
                             instagram: string -> Result<DownloadResult, string>,
                             ytdl: string -> Result<DownloadResult, string>)
    requires ProcessUrl(url, parse, instagram, ytdl).result == Success(None)
    ensures parse(url).Some? && parse(url).value.hostname !in SupportedDomains()
  {
  }
}

=== FILE: download_types.dfy ===
/** Shapes shared by the adapters, the processor and the bot: the result of a
    download (`DownloadResultDto`) and the opaque WHATWG URL parser. */
module DownloadTypes {
  import opened Wrappers

  /** `'remote'`: the entries are third-party URLs; `'local'`: they are file
      paths owned by the caller. */
  datatype ResultKind = Remote | Local

  datatype DownloadResult = DownloadResult(urls: seq<string>, kind: ResultKind)

  /** The only part of a parsed `URL` object the pipeline reads. */
  datatype ParsedUrl = ParsedUrl(hostname: string)

  /** `new URL(s)`: `None` where the constructor throws. Its scheme, host
      normalisation and port rules belong to a foreign library and are not
      modelled; every component receives the same parser. */
  type UrlParser = string -> Option<ParsedUrl>
}

=== FILE: instagram_adapter.dfy ===
/** `InstagramAdapterService.getFileUrl`: the Instagram extractor behind the
    common downloader interface. */
module InstagramAdapter {
  import opened Wrappers
  import opened DownloadTypes
  import opened InstagramMetadata

  /** Runs the metadata extraction on the URL as given, with the default retry
      policy, and wraps the single media URL as a `remote` result; a failure
      is rethrown unchanged. */
  function GetFileUrl(url: string, net: Network): (r: Result<DownloadResult, string>)
    ensures var meta := DefaultInstagramGetUrl(url, net).result;
      (meta.Success? ==> r == Success(DownloadResult([meta.value.url], Remote))) &&
      (meta.Failure? ==> r == Failure(meta.error))
    ensures r.Success? ==> |r.value.urls| == 1 && r.value.kind == Remote
  {
    match DefaultInstagramGetUrl(url, net).result
    case Success(media) => Success(DownloadResult([media.url], Remote))
    case Failure(e) => Failure(e)
  }
}

=== FILE: instagram_metadata.dfy ===
/** The Instagram metadata extractor (`InstagramMetadataService`): share-link
    redirect, shortcode extraction, CSRF token acquisition, the GraphQL query
    with its 429/403 retry-and-backoff loop, and sidecar resolution.

    Every HTTP exchange is an input: `Network` scripts the answer to the
    share-link GET, and the answers to the k-th root-page GET and the k-th
    GraphQL POST (k counts attempts from 0). Every function returns the list
    of requests and waits it performed, so call counts and order are
    statements about the model's output. */
module InstagramMetadata {
  import opened Wrappers
  import opened Strings

  const PostTags: seq<string> := ["p", "reel", "tv", "reels"]
  const SidecarTypename: string := "XDTGraphSidecar"
  const CsrfCookiePrefix: string := "csrftoken="
  const RetryStatuses: set<int> := {429, 403}
  const DefaultRetries: int := 5
  const DefaultDelayMs: int := 1000

  const ShortcodeError: string := "Failed to obtain shortcode: Shortcode not found in URL"
  const CsrfErrorPrefix: string := "Failed to obtain CSRF: "
  const MissingCookieHeader: string := "CSRF token not found in response headers"
  /** The `TypeError` V8 raises for `cookies[0].split` on an empty cookie list. */
  const UndefinedCookieSplit: string := "Cannot read properties of undefined (reading 'split')"
  const UnsupportedMedia: string := "Only posts/reels supported, check if your link is valid"
  const RequestErrorPrefix: string := "Failed instagram request: "
  const OutputErrorPrefix: string := "Failed to create output data: "
  /** The `TypeError` V8 raises for `edges[0].node` on an empty edge list. */
  const UndefinedEdgeNode: string := "Cannot read properties of undefined (reading 'node')"

  datatype MediaKind = Video | Image

  /** `InstagramResponse`: the single media item the extractor reports. */
  datatype InstagramResponse = InstagramResponse(kind: MediaKind, url: string)

  /** One child of a carousel (`edge_sidecar_to_children.edges[i].node`). */
  datatype MediaNode = MediaNode(isVideo: bool, videoUrl: string, displayUrl: string)

  /** `data.xdt_shortcode_media` of a GraphQL answer. */
  datatype MediaData = MediaData(
    typename: string,
    sidecarChildren: Option<seq<MediaNode>>,
    isVideo: bool,
    videoUrl: string,
    displayUrl: string)

  /** Answer to a GET of the root page: the `set-cookie` header (absent or
      a list of cookie strings), or the request's error message. */
  datatype RootResponse = RootReply(setCookie: Option<seq<string>>) | RootFailed(message: string)

  /** Answer to the GraphQL POST: a body whose `data.xdt_shortcode_media` is
      present or not, an HTTP error response (status, `retry-after` in whole
      seconds when the header is present, error message), or a failure
      without a response. */
  datatype GraphQLResponse =
    | GraphQLBody(media: Option<MediaData>)
    | HttpError(status: int, retryAfter: Option<int>, message: string)
    | RequestFailed(message: string)

  /** The scripted network: `redirect(u)` is the request path reported by a GET
      of `u`, or its error message. */
  datatype Network = Network(
    redirect: string -> Result<string, string>,
    root: nat -> RootResponse,
    graphql: nat -> GraphQLResponse)

  /** Observable effects, in order. */
  datatype Event =
    | RedirectGet(url: string)
    | RootGet
    | GraphQLPost(shortcode: string, csrfToken: string)
    | Wait(ms: int)

  /** A computation's outcome (a value or a thrown message) and its effects. */
  datatype Run<T> = Run(result: Result<T, string>, trace: seq<Event>)

  // ---------------------------------------------------------------------
  // Redirect resolution (checkRedirect)

  /** Some `/`-separated segment of `url` is exactly `share`. */
  predicate IsShareLink(url: string)
  {
    "share" in Split(url, '/')
  }

  /** A share link is replaced by the path a GET of it reports (an error of
      that GET propagates as is); any other URL comes back unchanged without a
      request. */
  function CheckRedirect(url: string, net: Network): (r: Run<string>)
    ensures (exists k :: 0 <= k < |Split(url, '/')| && Split(url, '/')[k] == "share") ==>
              r.result == net.redirect(url) && r.trace == [RedirectGet(url)]
    ensures (forall k :: 0 <= k < |Split(url, '/')| ==> Split(url, '/')[k] != "share") ==>
              r.result == Success(url) && r.trace == []
  {
    if IsShareLink(url) then Run(net.redirect(url), [RedirectGet(url)])
    else Run(Success(url), [])
  }

  // ---------------------------------------------------------------------
  // Shortcode extraction (getShortcode)

  /** `segs.findIndex(s => POST_TAGS.includes(s))`: the first post-tag
      segment, or -1 when there is none. */
  function FirstTagIndex(segs: seq<string>): (i: int)
    ensures -1 <= i < |segs|
    ensures i == -1 <==> forall j :: 0 <= j < |segs| ==> segs[j] !in PostTags
    ensures 0 <= i ==> segs[i] in PostTags && forall j :: 0 <= j < i ==> segs[j] !in PostTags
  {
    if |segs| == 0 then -1
    else if segs[0] in PostTags then 0
    else
      var i := FirstTagIndex(segs[1..]);
      if i == -1 then -1 else i + 1
  }

  /** The segment after the first post tag; with no post tag, `-1 + 1 = 0`
      selects the first segment. A missing or empty segment is an error. */
  function GetShortcode(url: string): (r: Result<string, string>)
    ensures r.Failure? ==> r.error == ShortcodeError
    ensures r.Success? ==> r.value != "" && '/' !in r.value
    ensures r.Success? <==>
              FirstTagIndex(Split(url, '/')) + 1 < |Split(url, '/')| &&
              Split(url, '/')[FirstTagIndex(Split(url, '/')) + 1] != ""
  {
    var segs := Split(url, '/');
    SplitPiecesSepFree(url, '/');
    var i := FirstTagIndex(segs) + 1;
    if i < |segs| && segs[i] != "" then Success(segs[i]) else Failure(ShortcodeError)
  }

  /** For any `/`-free segments whose first post tag is at `n` and whose
      next segment is non-empty, the URL they form yields that segment. */
  lemma {:induction false} ShortcodeOfJoin(segs: seq<string>, n: nat)
    requires n + 1 < |segs| && forall j :: 0 <= j < |segs| ==> '/' !in segs[j]
    requires forall j :: 0 <= j < n ==> segs[j] !in PostTags
    requires segs[n] in PostTags
    requires segs[n + 1] != ""
    ensures GetShortcode(Join(segs, '/')) == Success(segs[n + 1])
  {
    var url := Join(segs, '/');
    SplitJoin(segs, '/');
    assert Split(url, '/') == segs;
    ShortcodeFromSegments(url, n);
  }

  /** The segment after the first post tag, when non-empty, is the shortcode. */
  lemma ShortcodeFromSegments(url: string, n: nat)
    requires n + 1 < |Split(url, '/')|
    requires Split(url, '/')[n] in PostTags
    requires forall j :: 0 <= j < n ==> Split(url, '/')[j] !in PostTags
    requires Split(url, '/')[n + 1] != ""
    ensures GetShortcode(url) == Success(Split(url, '/')[n + 1])
  {
    var segs := Split(url, '/');
    assert FirstTagIndex(segs) == n;
  }

  /** The quirk of `findIndex(...) + 1`: with no post-tag segment at all,
      the first segment (for a full URL, its scheme such as `https:`) is
      taken as the shortcode. */
  lemma {:induction false} ShortcodeWithoutTag(segs: seq<string>)
    requires |segs| >= 1 && forall j :: 0 <= j < |segs| ==> '/' !in segs[j]
    requires forall j :: 0 <= j < |segs| ==> segs[j] !in PostTags
    requires segs[0] != ""
    ensures GetShortcode(Join(segs, '/')) == Success(segs[0])
  {
    var url := Join(segs, '/');
    SplitJoin(segs, '/');
    ShortcodeFromFirstSegment(url, segs);
  }

  /** With no post-tag segment, the first segment, when non-empty, is taken. */
  lemma ShortcodeFromFirstSegment(url: string, segs: seq<string>)
    requires Split(url, '/') == segs
    requires forall j :: 0 <= j < |segs| ==> segs[j] !in PostTags
    requires segs[0] != ""
    ensures GetShortcode(url) == Success(segs[0])
  {
    assert FirstTagIndex(segs) == -1;
  }

  /** A post tag that is the last segment, or is followed by an empty
      segment (`.../p/`), gives the shortcode error. */
  lemma {:induction false} ShortcodeMissingAfterTag(segs: seq<string>, n: nat)
    requires n < |segs| && forall j :: 0 <= j < |segs| ==> '/' !in segs[j]
    requires forall j :: 0 <= j < n ==> segs[j] !in PostTags
    requires segs[n] in PostTags
    requires n + 1 == |segs| || segs[n + 1] == ""
    ensures GetShortcode(Join(segs, '/')) == Failure(ShortcodeError)
  {
    var url := Join(segs, '/');
    SplitJoin(segs, '/');
    ShortcodeMissingFromSegments(url, segs, n);
  }

  /** With nothing after the first post tag, there is no shortcode. */
  lemma ShortcodeMissingFromSegments(url: string, segs: seq<string>, n: nat)
    requires Split(url, '/') == segs
    requires n < |segs| && segs[n] in PostTags
    requires forall j :: 0 <= j < n ==> segs[j] !in PostTags
    requires n + 1 == |segs| || segs[n + 1] == ""
    ensures GetShortcode(url) == Failure(ShortcodeError)
  {
    assert FirstTagIndex(segs) == n;
  }

  // ---------------------------------------------------------------------
  // CSRF token (getCSRFToken)

  /** The token is read from the FIRST `set-cookie` entry, whatever cookie it
      is: the text before its first `;`, with the first `csrftoken=` removed. */
  function ParseCsrfCookies(setCookie: Option<seq<string>>): (r: Result<string, string>)
    ensures setCookie.None? ==> r == Failure(CsrfErrorPrefix + MissingCookieHeader)
    ensures setCookie == Some([]) ==> r == Failure(CsrfErrorPrefix + UndefinedCookieSplit)
    ensures r.Success? <==> setCookie.Some? && |setCookie.value| > 0
    ensures r.Success? ==> ';' !in r.value && |r.value| <= |setCookie.value[0]|
  {
    match setCookie
    case None => Failure(CsrfErrorPrefix + MissingCookieHeader)
    case Some(cookies) =>
      if |cookies| == 0 then Failure(CsrfErrorPrefix + UndefinedCookieSplit)
      else
        var piece := Split(cookies[0], ';')[0];
        SplitPiecesSepFree(cookies[0], ';');
        SplitFirstPieceShorter(cookies[0], ';');
        RemoveFirstKeeps(piece, CsrfCookiePrefix);
        Success(RemoveFirst(piece, CsrfCookiePrefix))
  }

  /** The root-page GET followed by cookie parsing; a failed GET is wrapped
      like any other CSRF failure (it is no longer an HTTP error afterwards). */
  function GetCsrfToken(resp: RootResponse): (r: Result<string, string>)
    ensures r.Failure? ==> CsrfErrorPrefix <= r.error
    ensures resp.RootFailed? ==> r == Failure(CsrfErrorPrefix + resp.message)
    ensures resp.RootReply? ==> r == ParseCsrfCookies(resp.setCookie)
  {
    match resp
    case RootFailed(msg) => Failure(CsrfErrorPrefix + msg)
    case RootReply(cookies) => ParseCsrfCookies(cookies)
  }

  /** For any first cookie `p + q`, where `p` is its text before the first
      `;` (all of it when there is no `;`), the token is `p` with the first
      `csrftoken=` removed; the cookies after it play no part. */
  lemma CsrfOfFirstCookie(p: string, q: string, others: seq<string>)
    requires ';' !in p
    requires q == "" || q[0] == ';'
    ensures ParseCsrfCookies(Some([p + q] + others)) == Success(RemoveFirst(p, CsrfCookiePrefix))
  {
    if q == "" {
      assert p + q == p;
      SplitNoSep(p, ';');
    } else {
      assert p + q == p + [';'] + q[1..];
      SplitFirstPiece(p, ';', q[1..]);
    }
  }

  /** A first cookie `csrftoken=<v>; <attributes>` yields `v`. */
  lemma CsrfFromFirstCookie(v: string, attributes: string, others: seq<string>)
    requires ';' !in v
    ensures ParseCsrfCookies(Some([CsrfCookiePrefix + v + ";" + attributes] + others)) == Success(v)
  {
    var cookie := CsrfCookiePrefix + v + ";" + attributes;
    assert cookie == (CsrfCookiePrefix + v) + [';'] + attributes;
    assert ';' !in CsrfCookiePrefix + v by {
      assert forall k :: 0 <= k < |CsrfCookiePrefix| ==> CsrfCookiePrefix[k] != ';';
    }
    SplitFirstPiece(CsrfCookiePrefix + v, ';', attributes);
    RemoveFirstOfPrefix(CsrfCookiePrefix, v);
  }

  /** The CSRF cookie is not searched for: when another cookie comes first,
      that cookie's `name=value` is sent as the token. */
  lemma CsrfTakesFirstCookieEvenIfOther()
    ensures ParseCsrfCookies(Some(["mid=abc", "csrftoken=t"])) == Success("mid=abc")
  {
    SplitNoSep("mid=abc", ';');
    RemoveFirstAbsent("mid=abc", CsrfCookiePrefix);
  }

  // ---------------------------------------------------------------------
  // Output selection (isSidecar, createOutputData)

  predicate IsSidecar(d: MediaData)
  {
    d.typename == SidecarTypename
  }

  /** A node describes a video through `video_url`, otherwise an image
      through `display_url`. */
  function Describe(isVideo: bool, videoUrl: string, displayUrl: string): (r: InstagramResponse)
    ensures r.kind == Video <==> isVideo
    ensures r.url == (if isVideo then videoUrl else displayUrl)
  {
    if isVideo then InstagramResponse(Video, videoUrl) else InstagramResponse(Image, displayUrl)
  }

  /** A sidecar with children is described by its first child only (an empty
      child list makes the lookup fail); everything else by its top-level
      fields. */
  function CreateOutputData(d: MediaData): (r: Result<InstagramResponse, string>)
    ensures IsSidecar(d) && d.sidecarChildren.Some? && |d.sidecarChildren.value| > 0 ==>
              var first := d.sidecarChildren.value[0];
              r == Success(Describe(first.isVideo, first.videoUrl, first.displayUrl))
    ensures IsSidecar(d) && d.sidecarChildren == Some([]) ==>
              r == Failure(OutputErrorPrefix + UndefinedEdgeNode)
    ensures !(IsSidecar(d) && d.sidecarChildren.Some?) ==>
              r == Success(Describe(d.isVideo, d.videoUrl, d.displayUrl))
  {
    if IsSidecar(d) && d.sidecarChildren.Some? then
      var edges := d.sidecarChildren.value;
      if |edges| == 0 then Failure(OutputErrorPrefix + UndefinedEdgeNode)
      else Success(Describe(edges[0].isVideo, edges[0].videoUrl, edges[0].displayUrl))
    else Success(Describe(d.isVideo, d.videoUrl, d.displayUrl))
  }

  // ---------------------------------------------------------------------
  // GraphQL request with retry (instagramRequest)

  /** What attempt `k` sees: the outcome of its own `getCSRFToken` call and
      the answer to its GraphQL POST. */
  datatype AttemptScript = AttemptScript(
    csrf: nat -> Result<string, string>,
    graphql: nat -> GraphQLResponse)

  /** Every attempt performs a fresh root-page GET: attempt `k` parses the
      `k`-th root answer. */
  function ScriptOf(net: Network): AttemptScript
  {
    AttemptScript((k: nat) => GetCsrfToken(net.root(k)), net.graphql)
  }

  /** The result of one attempt: media, a rate-limit answer that may be
      retried, or a failure that is never retried. */
  datatype AttemptOutcome =
    | Fetched(media: MediaData)
    | Throttled(retryAfter: Option<int>, message: string)
    | Failed(message: string)

  datatype AttemptRun = AttemptRun(outcome: AttemptOutcome, trace: seq<Event>)

  /** Attempt `k`: a fresh CSRF token (root-page GET `k`), then GraphQL
      POST `k`. Only an HTTP error response with status 429 or 403 is
      retryable; a CSRF failure or a body without media is not. */
  function Attempt(shortcode: string, script: AttemptScript, k: nat): (a: AttemptRun)
    ensures a.trace == [RootGet] || (|a.trace| == 2 && a.trace[0] == RootGet && a.trace[1].GraphQLPost?)
    ensures a.outcome.Throttled? <==> Throttles(script, k)
    ensures a.outcome.Throttled? ==> a.outcome.retryAfter == script.graphql(k).retryAfter
    ensures a.outcome.Fetched? ==> script.graphql(k) == GraphQLBody(Some(a.outcome.media))
    // the POST is sent, with this attempt's token, exactly when the token was obtained
    ensures a.trace == [RootGet] <==> script.csrf(k).Failure?
    ensures script.csrf(k).Success? ==> a.trace == [RootGet, GraphQLPost(shortcode, script.csrf(k).value)]
    // what each answer makes of the attempt
    ensures a.outcome.Fetched? <==>
              script.csrf(k).Success? && script.graphql(k).GraphQLBody? && script.graphql(k).media.Some?
    ensures script.csrf(k).Failure? ==> a.outcome == Failed(script.csrf(k).error)
    ensures script.csrf(k).Success? && script.graphql(k) == GraphQLBody(None) ==> a.outcome == Failed(UnsupportedMedia)
    ensures script.csrf(k).Success? && !script.graphql(k).GraphQLBody? ==>
              a.outcome.message == script.graphql(k).message
  {
    match script.csrf(k)
    case Failure(e) => AttemptRun(Failed(e), [RootGet])
    case Success(token) =>
      var trace := [RootGet, GraphQLPost(shortcode, token)];
      match script.graphql(k)
      case GraphQLBody(None) => AttemptRun(Failed(UnsupportedMedia), trace)
      case GraphQLBody(Some(m)) => AttemptRun(Fetched(m), trace)
      case HttpError(status, retryAfter, msg) =>
        if status in RetryStatuses then AttemptRun(Throttled(retryAfter, msg), trace)
        else AttemptRun(Failed(msg), trace)
      case RequestFailed(msg) => AttemptRun(Failed(msg), trace)
  }

  /** Attempt `k` obtains its token and is answered 429 or 403. */
  predicate Throttles(script: AttemptScript, k: nat)
  {
    script.csrf(k).Success? &&
    script.graphql(k).HttpError? && script.graphql(k).status in RetryStatuses
  }

  /** The `retry-after` of an HTTP error answer; nothing for other answers. */
  function RetryAfterOf(resp: GraphQLResponse): Option<int>
  {
    if resp.HttpError? then resp.retryAfter else None
  }

  /** `retry-after` seconds in milliseconds when the header is present,
      otherwise the current delay. */
  function WaitTime(retryAfter: Option<int>, delay: int): int
  {
    match retryAfter
    case Some(seconds) => seconds * 1000
    case None => delay
  }

  /** How an attempt that is not retried ends the request. */
  function Conclude(outcome: AttemptOutcome): (r: Result<MediaData, string>)
    ensures r.Success? <==> outcome.Fetched?
    ensures r.Failure? ==> RequestErrorPrefix <= r.error
    ensures outcome.Fetched? ==> r == Success(outcome.media)
    ensures !outcome.Fetched? ==> r == Failure(RequestErrorPrefix + outcome.message)
  {
    match outcome
    case Fetched(m) => Success(m)
    case Throttled(_, msg) => Failure(RequestErrorPrefix + msg)
    case Failed(msg) => Failure(RequestErrorPrefix + msg)
  }

  function Pow2(n: nat): nat
  {
    if n == 0 then 1 else 2 * Pow2(n - 1)
  }

  function PostCount(trace: seq<Event>): nat
  {
    if |trace| == 0 then 0
    else (if trace[0].GraphQLPost? then 1 else 0) + PostCount(trace[1..])
  }

  function Waits(trace: seq<Event>): seq<int>
  {
    if |trace| == 0 then []
    else (if trace[0].Wait? then [trace[0].ms] else []) + Waits(trace[1..])
  }

  /** Every GraphQL POST is immediately preceded by its own root-page GET. */
  ghost predicate PostsFollowRootGets(trace: seq<Event>)
  {
    forall i :: 0 <= i < |trace| && trace[i].GraphQLPost? ==> 0 < i && trace[i - 1] == RootGet
  }

  function Budget(retries: int): nat
  {
    if retries > 0 then retries else 0
  }

  /** `instagramRequest(shortcode, retries, delay)` starting at attempt `k`:
      an attempt answered 429/403 is retried while `retries > 0`, after a
      wait, with `retries - 1` and `delay * 2`. Every failure carries the
      `Failed instagram request: ` prefix, and at most `max(retries, 0) + 1`
      POSTs are sent (a negative `retries` still allows the first). */
  function InstagramRequest(shortcode: string, retries: int, delay: int, script: AttemptScript, k: nat): (r: Run<MediaData>)
    ensures r.result.Failure? ==> RequestErrorPrefix <= r.result.error
    ensures PostCount(r.trace) <= Budget(retries) + 1
    decreases retries
  {
    var a := Attempt(shortcode, script, k);
    AttemptTraceCounts(a.trace);
    match a.outcome
    case Fetched(m) => Run(Success(m), a.trace)
    case Failed(msg) => Run(Failure(RequestErrorPrefix + msg), a.trace)
    case Throttled(retryAfter, msg) =>
      if retries > 0 then
        var rest := InstagramRequest(shortcode, retries - 1, delay * 2, script, k + 1);
        RetryStepFacts(a, WaitTime(retryAfter, delay), rest.trace);
        Run(rest.result, a.trace + [Wait(WaitTime(retryAfter, delay))] + rest.trace)
      else Run(Failure(RequestErrorPrefix + msg), a.trace)
  }

  /** One step of `InstagramRequest`, as the lemmas below use it. */
  lemma RequestStep(shortcode: string, retries: int, delay: int, script: AttemptScript, k: nat)
    ensures var a := Attempt(shortcode, script, k);
      var r := InstagramRequest(shortcode, retries, delay, script, k);
      if a.outcome.Throttled? && retries > 0 then
        var rest := InstagramRequest(shortcode, retries - 1, delay * 2, script, k + 1);
        r.result == rest.result &&
        r.trace == a.trace + [Wait(WaitTime(RetryAfterOf(script.graphql(k)), delay))] + rest.trace &&
        Waits(r.trace) == [WaitTime(RetryAfterOf(script.graphql(k)), delay)] + Waits(rest.trace) &&
        (PostsFollowRootGets(rest.trace) ==> PostsFollowRootGets(r.trace))
      else
        r.result == Conclude(a.outcome) && r.trace == a.trace && Waits(r.trace) == [] && PostsFollowRootGets(r.trace)
  {
    var a := Attempt(shortcode, script, k);
    AttemptTraceCounts(a.trace);
    if a.outcome.Throttled? && retries > 0 {
      var rest := InstagramRequest(shortcode, retries - 1, delay * 2, script, k + 1);
      RetryStepFacts(a, WaitTime(a.outcome.retryAfter, delay), rest.trace);
    }
  }

  /** The waits of `n` consecutive retries from attempt `k`: each lasts the
      `retry-after` of its answer or the current delay, and the delay doubles
      from one retry to the next. */
  function Backoff(script: AttemptScript, k: nat, delay: int, n: nat): (w: seq<int>)
    ensures |w| == n
    decreases n
  {
    if n == 0 then [] else [WaitTime(RetryAfterOf(script.graphql(k)), delay)] + Backoff(script, k + 1, delay * 2, n - 1)
  }

  /** Closed form of the backoff: wait `j` is `retry-after`×1000 ms when that
      header was sent, otherwise `delay`×2^j ms. */
  lemma {:induction false} BackoffClosedForm(script: AttemptScript, k: nat, delay: int, n: nat)
    ensures forall j :: 0 <= j < n ==>
              Backoff(script, k, delay, n)[j] == WaitTime(RetryAfterOf(script.graphql(k + j)), delay * Pow2(j))
    decreases n
  {
    if n > 0 {
      var w := Backoff(script, k, delay, n);
      var rest := Backoff(script, k + 1, delay * 2, n - 1);
      BackoffClosedForm(script, k + 1, delay * 2, n - 1);
      forall j | 0 <= j < n
        ensures w[j] == WaitTime(RetryAfterOf(script.graphql(k + j)), delay * Pow2(j))
      {
        if j > 0 {
          assert w[j] == rest[j - 1];
          assert k + 1 + (j - 1) == k + j;
          assert (delay * 2) * Pow2(j - 1) == delay * Pow2(j);
        }
      }
    }
  }

  /** The retry schedule: the number of waits never exceeds the retry
      budget, and the waits follow `Backoff`. */
  lemma {:induction false} RetrySchedule(shortcode: string, retries: int, delay: int, script: AttemptScript, k: nat)
    ensures FollowsBackoff(shortcode, retries, delay, script, k)
    decreases retries
  {
    if Attempt(shortcode, script, k).outcome.Throttled? && retries > 0 {
      RetrySchedule(shortcode, retries - 1, delay * 2, script, k + 1);
      RetriedSchedule(shortcode, retries, delay, script, k);
    } else {
      FinalStep(shortcode, retries, delay, script, k);
    }
  }

  /** The waits of the request from attempt `k` stay within the budget and
      follow `Backoff`. */
  ghost predicate FollowsBackoff(shortcode: string, retries: int, delay: int, script: AttemptScript, k: nat)
  {
    var w := Waits(InstagramRequest(shortcode, retries, delay, script, k).trace);
    |w| <= Budget(retries) && w == Backoff(script, k, delay, |w|)
  }

  /** A retried attempt adds the first wait of the backoff in front of the
      rest's waits. */
  lemma RetriedSchedule(shortcode: string, retries: int, delay: int, script: AttemptScript, k: nat)
    requires Attempt(shortcode, script, k).outcome.Throttled? && retries > 0
    requires FollowsBackoff(shortcode, retries - 1, delay * 2, script, k + 1)
    ensures FollowsBackoff(shortcode, retries, delay, script, k)
  {
    RequestStep(shortcode, retries, delay, script, k);
    var wr := Waits(InstagramRequest(shortcode, retries - 1, delay * 2, script, k + 1).trace);
    var w := Waits(InstagramRequest(shortcode, retries, delay, script, k).trace);
    var first := WaitTime(RetryAfterOf(script.graphql(k)), delay);
    assert w == [first] + wr;
    assert Backoff(script, k, delay, |w|) == [first] + Backoff(script, k + 1, delay * 2, |wr|);
  }

  /** Only 429/403 answers are retried: with `n` waits performed, attempts
      `k .. k+n-1` each obtained a token and were answered 429 or 403. */
  lemma {:induction false} RetriedAttemptsThrottled(shortcode: string, retries: int, delay: int, script: AttemptScript, k: nat)
    ensures RetriedOnlyThrottled(shortcode, retries, delay, script, k)
    decreases retries
  {
    if Attempt(shortcode, script, k).outcome.Throttled? && retries > 0 {
      RetriedAttemptsThrottled(shortcode, retries - 1, delay * 2, script, k + 1);
      RetriedThrottledStep(shortcode, retries, delay, script, k);
    } else {
      FinalStep(shortcode, retries, delay, script, k);
    }
  }

  /** Every attempt before the last wait of the request from `k` was
      answered 429 or 403. */
  ghost predicate RetriedOnlyThrottled(shortcode: string, retries: int, delay: int, script: AttemptScript, k: nat)
  {
    var n := |Waits(InstagramRequest(shortcode, retries, delay, script, k).trace)|;
    forall i :: k <= i < k + n ==> Throttles(script, i)
  }

  /** A retried attempt is itself a 429/403, so the rest of the request's
      throttled attempts extend to the whole request. */
  lemma RetriedThrottledStep(shortcode: string, retries: int, delay: int, script: AttemptScript, k: nat)
    requires Attempt(shortcode, script, k).outcome.Throttled? && retries > 0
    requires RetriedOnlyThrottled(shortcode, retries - 1, delay * 2, script, k + 1)
    ensures RetriedOnlyThrottled(shortcode, retries, delay, script, k)
  {
    RetriedStep(shortcode, retries, delay, script, k);
    ThrottledIsThrottles(shortcode, script, k);
  }

  /** An attempt with the `Throttled` outcome obtained its token and was
      answered 429 or 403. */
  lemma ThrottledIsThrottles(shortcode: string, script: AttemptScript, k: nat)
    ensures Attempt(shortcode, script, k).outcome.Throttled? ==> Throttles(script, k)
  {
  }

  /** The attempt after the last wait decides the outcome. */
  lemma {:induction false} RetryOutcome(shortcode: string, retries: int, delay: int, script: AttemptScript, k: nat)
    ensures ConcludedByLastAttempt(shortcode, retries, delay, script, k)
    decreases retries
  {
    if Attempt(shortcode, script, k).outcome.Throttled? && retries > 0 {
      RetryOutcome(shortcode, retries - 1, delay * 2, script, k + 1);
      RetriedConclusion(shortcode, retries, delay, script, k);
    } else {
      FinalStep(shortcode, retries, delay, script, k);
    }
  }

  /** The request's result is the conclusion of the attempt made after its
      last wait. */
  ghost predicate ConcludedByLastAttempt(shortcode: string, retries: int, delay: int, script: AttemptScript, k: nat)
  {
    var r := InstagramRequest(shortcode, retries, delay, script, k);
    r.result == Conclude(Attempt(shortcode, script, k + |Waits(r.trace)|).outcome)
  }

  /** A retried attempt passes the rest of the request's result through,
      after one wait. */
  lemma RetriedStep(shortcode: string, retries: int, delay: int, script: AttemptScript, k: nat)
    requires Attempt(shortcode, script, k).outcome.Throttled? && retries > 0
    ensures InstagramRequest(shortcode, retries, delay, script, k).result ==
            InstagramRequest(shortcode, retries - 1, delay * 2, script, k + 1).result
    ensures |Waits(InstagramRequest(shortcode, retries, delay, script, k).trace)| ==
            1 + |Waits(InstagramRequest(shortcode, retries - 1, delay * 2, script, k + 1).trace)|
  {
    RequestStep(shortcode, retries, delay, script, k);
  }

  /** After a retried attempt, the conclusion of the rest of the request is
      the conclusion of the request. */
  lemma RetriedConclusion(shortcode: string, retries: int, delay: int, script: AttemptScript, k: nat)
    requires Attempt(shortcode, script, k).outcome.Throttled? && retries > 0
    requires ConcludedByLastAttempt(shortcode, retries - 1, delay * 2, script, k + 1)
    ensures ConcludedByLastAttempt(shortcode, retries, delay, script, k)
  {
    RetriedStep(shortcode, retries, delay, script, k);
    var r := InstagramRequest(shortcode, retries, delay, script, k);
    var rest := InstagramRequest(shortcode, retries - 1, delay * 2, script, k + 1);
    var j := k + |Waits(r.trace)|;
    assert j == k + 1 + |Waits(rest.trace)|;
    assert r.result == rest.result;
  }

  /** An attempt that is not retried concludes the request, without a wait. */
  lemma FinalStep(shortcode: string, retries: int, delay: int, script: AttemptScript, k: nat)
    requires !(Attempt(shortcode, script, k).outcome.Throttled? && retries > 0)
    ensures InstagramRequest(shortcode, retries, delay, script, k).result == Conclude(Attempt(shortcode, script, k).outcome)
    ensures |Waits(InstagramRequest(shortcode, retries, delay, script, k).trace)| == 0
    ensures ConcludedByLastAttempt(shortcode, retries, delay, script, k)
  {
    RequestStep(shortcode, retries, delay, script, k);
  }

  /** The attempt after the last wait is a 429/403 only when the retry
      budget is spent. */
  lemma {:induction false} LastAttemptThrottledOnlyAtBudget(shortcode: string, retries: int, delay: int,
                                                            script: AttemptScript, k: nat)
    ensures ThrottledOnlyAtBudget(shortcode, retries, delay, script, k)
    decreases retries
  {
    if Attempt(shortcode, script, k).outcome.Throttled? && retries > 0 {
      LastAttemptThrottledOnlyAtBudget(shortcode, retries - 1, delay * 2, script, k + 1);
      RetriedBudget(shortcode, retries, delay, script, k);
    } else {
      FinalBudget(shortcode, retries, delay, script, k);
    }
  }

  /** The request from attempt `k` ends on a 429/403 only with its budget spent. */
  ghost predicate ThrottledOnlyAtBudget(shortcode: string, retries: int, delay: int, script: AttemptScript, k: nat)
  {
    var n := |Waits(InstagramRequest(shortcode, retries, delay, script, k).trace)|;
    Throttles(script, k + n) ==> n == Budget(retries)
  }

  /** After a retried attempt, the rest of the request ending on a 429/403
      only at its budget gives the same for the whole request. */
  lemma RetriedBudget(shortcode: string, retries: int, delay: int, script: AttemptScript, k: nat)
    requires Attempt(shortcode, script, k).outcome.Throttled? && retries > 0
    requires ThrottledOnlyAtBudget(shortcode, retries - 1, delay * 2, script, k + 1)
    ensures ThrottledOnlyAtBudget(shortcode, retries, delay, script, k)
  {
    RetriedStep(shortcode, retries, delay, script, k);
    var n := |Waits(InstagramRequest(shortcode, retries, delay, script, k).trace)|;
    var m := |Waits(InstagramRequest(shortcode, retries - 1, delay * 2, script, k + 1).trace)|;
    assert n == 1 + m && k + n == (k + 1) + m;
  }

  /** A request that ends without a wait ends on a 429/403 only when it has
      no retry left. */
  lemma FinalBudget(shortcode: string, retries: int, delay: int, script: AttemptScript, k: nat)
    requires !(Attempt(shortcode, script, k).outcome.Throttled? && retries > 0)
    ensures ThrottledOnlyAtBudget(shortcode, retries, delay, script, k)
  {
    FinalStep(shortcode, retries, delay, script, k);
    ThrottlesIsThrottled(shortcode, script, k);
  }

  /** An attempt that obtains its token and is answered 429 or 403 has the
      `Throttled` outcome. */
  lemma ThrottlesIsThrottled(shortcode: string, script: AttemptScript, k: nat)
    ensures Throttles(script, k) ==> Attempt(shortcode, script, k).outcome.Throttled?
  {
  }

  /** Each GraphQL POST is sent right after its own root-page GET: the CSRF
      token is never reused across attempts. */
  lemma {:induction false} FreshTokenPerPost(shortcode: string, retries: int, delay: int, script: AttemptScript, k: nat)
    ensures PostsFollowRootGets(InstagramRequest(shortcode, retries, delay, script, k).trace)
    ensures PostsCarryOwnTokens(InstagramRequest(shortcode, retries, delay, script, k).trace, shortcode, script, k)
    decreases retries
  {
    var a := Attempt(shortcode, script, k);
    RequestStep(shortcode, retries, delay, script, k);
    if a.outcome.Throttled? && retries > 0 {
      var rest := InstagramRequest(shortcode, retries - 1, delay * 2, script, k + 1);
      FreshTokenPerPost(shortcode, retries - 1, delay * 2, script, k + 1);
      ThrottledIsThrottles(shortcode, script, k);
      RetriedPostsCarryOwnTokens(shortcode, script, k, WaitTime(RetryAfterOf(script.graphql(k)), delay), rest.trace);
    } else {
      AttemptPostCarriesOwnToken(shortcode, script, k);
    }
  }

  /** Every GraphQL POST of a trace starting at attempt `k` carries the token
      of its own attempt: the one numbered `k` plus the waits before it. */
  ghost predicate PostsCarryOwnTokens(trace: seq<Event>, shortcode: string, script: AttemptScript, k: nat)
  {
    forall i :: 0 <= i < |trace| && trace[i].GraphQLPost? ==>
      script.csrf(k + |Waits(trace[..i])|).Success? &&
      trace[i] == GraphQLPost(shortcode, script.csrf(k + |Waits(trace[..i])|).value)
  }

  /** A single attempt's POST, if any, carries the token that attempt obtained. */
  lemma AttemptPostCarriesOwnToken(shortcode: string, script: AttemptScript, k: nat)
    ensures PostsCarryOwnTokens(Attempt(shortcode, script, k).trace, shortcode, script, k)
  {
    var t := Attempt(shortcode, script, k).trace;
    if |t| == 2 {
      assert t[..1] == [RootGet];
      assert Waits([RootGet]) == [] by { assert [RootGet][1..] == []; }
    }
  }

  /** A retried attempt followed by its wait, then a rest whose POSTs carry
      their own tokens from attempt `k + 1` on: every POST of the whole
      trace carries its own token from attempt `k` on. */
  lemma RetriedPostsCarryOwnTokens(shortcode: string, script: AttemptScript, k: nat, w: int, rest: seq<Event>)
    requires script.csrf(k).Success?
    requires PostsCarryOwnTokens(rest, shortcode, script, k + 1)
    ensures PostsCarryOwnTokens(Attempt(shortcode, script, k).trace + [Wait(w)] + rest, shortcode, script, k)
  {
    var post := GraphQLPost(shortcode, script.csrf(k).value);
    var head := [RootGet, post, Wait(w)];
    assert Attempt(shortcode, script, k).trace + [Wait(w)] == head;
    HeadWaits(head, w);
    var t := head + rest;
    forall i | 0 <= i < |t| && t[i].GraphQLPost?
      ensures script.csrf(k + |Waits(t[..i])|).Success?
      ensures t[i] == GraphQLPost(shortcode, script.csrf(k + |Waits(t[..i])|).value)
    {
      if i < 3 {
        FirstPostOfHead(head, rest, w);
      } else {
        TailPostCarriesOwnToken(head, rest, i, shortcode, script, k);
      }
    }
  }

  /** The POST of the retried attempt is its only POST before the wait and
      is preceded by no wait. */
  lemma FirstPostOfHead(head: seq<Event>, rest: seq<Event>, w: int)
    requires |head| == 3 && head[0] == RootGet && head[1].GraphQLPost? && head[2] == Wait(w)
    ensures forall i :: 0 <= i < 3 && (head + rest)[i].GraphQLPost? ==> i == 1
    ensures Waits((head + rest)[..1]) == []
  {
    assert (head + rest)[..1] == [RootGet];
    assert [RootGet][1..] == [];
  }

  /** A POST of the rest sees the one wait of the head plus the waits of the
      rest before it. */
  lemma TailPostCarriesOwnToken(head: seq<Event>, rest: seq<Event>, i: nat,
                                shortcode: string, script: AttemptScript, k: nat)
    requires |head| == 3 && |Waits(head)| == 1
    requires PostsCarryOwnTokens(rest, shortcode, script, k + 1)
    requires 3 <= i < |head + rest| && (head + rest)[i].GraphQLPost?
    ensures script.csrf(k + |Waits((head + rest)[..i])|).Success?
    ensures (head + rest)[i] == GraphQLPost(shortcode, script.csrf(k + |Waits((head + rest)[..i])|).value)
  {
    var t := head + rest;
    assert t[..i] == head + rest[..i - 3];
    WaitsAppend(head, rest[..i - 3]);
    assert t[i] == rest[i - 3];
    assert k + |Waits(t[..i])| == k + 1 + |Waits(rest[..i - 3])|;
  }

  lemma HeadWaits(head: seq<Event>, w: int)
    requires |head| == 3 && !head[0].Wait? && !head[1].Wait? && head[2] == Wait(w)
    ensures Waits(head) == [w]
  {
    assert head[2..][1..] == [];
    assert Waits(head[2..]) == [w];
    assert head[1..][1..] == head[2..];
    assert Waits(head[1..]) == Waits(head[2..]);
  }

  /** Under a constant 429/403 answer the budget is used up: exactly
      `retries` waits and `retries + 1` POSTs, then a failure. */
  lemma {:induction false} ConstantThrottleExhausts(shortcode: string, retries: nat, delay: int, script: AttemptScript, k: nat)
    requires forall i :: k <= i ==> Throttles(script, i)
    ensures var r := InstagramRequest(shortcode, retries, delay, script, k);
      |Waits(r.trace)| == retries && PostCount(r.trace) == retries + 1 && r.result.Failure?
    decreases retries
  {
    var a := Attempt(shortcode, script, k);
    AttemptTraceCounts(a.trace);
    RequestStep(shortcode, retries, delay, script, k);
    assert Throttles(script, k);
    if retries > 0 {
      var rest := InstagramRequest(shortcode, retries - 1, delay * 2, script, k + 1);
      ConstantThrottleExhausts(shortcode, retries - 1, delay * 2, script, k + 1);
      RetryStepFacts(a, WaitTime(a.outcome.retryAfter, delay), rest.trace);
    }
  }

  /** A CSRF failure ends the request after the root-page GET: no POST is
      sent and nothing is retried. */
  lemma CsrfFailureIsNotRetried(shortcode: string, retries: int, delay: int, script: AttemptScript, k: nat)
    requires script.csrf(k).Failure?
    ensures InstagramRequest(shortcode, retries, delay, script, k) ==
              Run(Failure(RequestErrorPrefix + script.csrf(k).error), [RootGet])
  {
  }

  /** A body without `xdt_shortcode_media` is not retried either. */
  lemma MissingMediaIsNotRetried(shortcode: string, retries: int, delay: int, script: AttemptScript, k: nat)
    requires script.csrf(k).Success?
    requires script.graphql(k) == GraphQLBody(None)
    ensures InstagramRequest(shortcode, retries, delay, script, k) ==
              Run(Failure(RequestErrorPrefix + UnsupportedMedia), [RootGet, GraphQLPost(shortcode, script.csrf(k).value)])
  {
  }

  /** One 429 with `retry-after: 1`, then media: the request succeeds after
      a single wait of 1000 ms and exactly two POSTs. */
  lemma RetryThenSucceed(shortcode: string, retries: int, delay: int, script: AttemptScript, m: MediaData)
    requires retries >= 1
    requires script.csrf(0).Success? && script.csrf(1).Success?
    requires script.graphql(0).HttpError? && script.graphql(0).status == 429 && script.graphql(0).retryAfter == Some(1)
    requires script.graphql(1) == GraphQLBody(Some(m))
    ensures var r := InstagramRequest(shortcode, retries, delay, script, 0);
      r.result == Success(m) && Waits(r.trace) == [1000] && PostCount(r.trace) == 2
  {
    var a := Attempt(shortcode, script, 0);
    AttemptTraceCounts(a.trace);
    var rest := InstagramRequest(shortcode, retries - 1, delay * 2, script, 1);
    AttemptTraceCounts(Attempt(shortcode, script, 1).trace);
    RetryStepFacts(a, 1000, rest.trace);
  }

  // ---------------------------------------------------------------------
  // The whole extraction (instagramGetUrl)

  /** `instagramGetUrl(url, {retries, delay})`: redirect, shortcode, GraphQL
      request against fresh CSRF tokens, output selection. Errors of every
      stage are rethrown as they are. */
  function InstagramGetUrl(url: string, retries: int, delay: int, net: Network): (r: Run<InstagramResponse>)
    ensures PostCount(r.trace) <= Budget(retries) + 1
    ensures IsShareLink(url) <==> |r.trace| > 0 && r.trace[0] == RedirectGet(url)
    ensures CheckRedirect(url, net).result.Failure? ==>
              r == Run(Failure(CheckRedirect(url, net).result.error), CheckRedirect(url, net).trace)
    ensures CheckRedirect(url, net).result.Success? && GetShortcode(CheckRedirect(url, net).result.value).Failure? ==>
              r.result == Failure(ShortcodeError) && PostCount(r.trace) == 0
    ensures CheckRedirect(url, net).result.Success? && GetShortcode(CheckRedirect(url, net).result.value).Success? ==>
              var q := InstagramRequest(GetShortcode(CheckRedirect(url, net).result.value).value,
                                        retries, delay, ScriptOf(net), 0);
              r.trace == CheckRedirect(url, net).trace + q.trace &&
              r.result == (if q.result.Failure? then Failure(q.result.error) else CreateOutputData(q.result.value))
  {
    var redirect := CheckRedirect(url, net);
    assert PostCount(redirect.trace) == 0 by {
      assert redirect.trace == [] || redirect.trace[1..] == [];
    }
    match redirect.result
    case Failure(e) => Run(Failure(e), redirect.trace)
    case Success(target) =>
      match GetShortcode(target)
      case Failure(e) => Run(Failure(e), redirect.trace)
      case Success(code) =>
        var request := InstagramRequest(code, retries, delay, ScriptOf(net), 0);
        PostCountAppend(redirect.trace, request.trace);
        var trace := redirect.trace + request.trace;
        RequestStartsWithRootGet(code, retries, delay, ScriptOf(net), 0);
        assert !IsShareLink(url) ==> trace == request.trace;
        match request.result
        case Failure(e) => Run(Failure(e), trace)
        case Success(media) => Run(CreateOutputData(media), trace)
  }

  /** A request always begins with the root-page GET of its first attempt. */
  lemma RequestStartsWithRootGet(shortcode: string, retries: int, delay: int, script: AttemptScript, k: nat)
    ensures var t := InstagramRequest(shortcode, retries, delay, script, k).trace;
      |t| > 0 && t[0] == RootGet
  {
    RequestStep(shortcode, retries, delay, script, k);
  }

  /** Once the redirect and the shortcode succeed, the extraction is decided
      by the attempt made after the last wait: its media goes through output
      selection, and any other outcome is the request's failure. */
  lemma ExtractionDecidedByLastAttempt(url: string, retries: int, delay: int, net: Network)
    requires CheckRedirect(url, net).result.Success?
    requires GetShortcode(CheckRedirect(url, net).result.value).Success?
    ensures var code := GetShortcode(CheckRedirect(url, net).result.value).value;
      var r := InstagramGetUrl(url, retries, delay, net);
      var last := Attempt(code, ScriptOf(net), |Waits(r.trace)|).outcome;
      (last.Fetched? ==> r.result == CreateOutputData(last.media)) &&
      (!last.Fetched? ==> r.result == Failure(Conclude(last).error))
  {
    var redirect := CheckRedirect(url, net);
    var code := GetShortcode(redirect.result.value).value;
    var q := InstagramRequest(code, retries, delay, ScriptOf(net), 0);
    RetryOutcome(code, retries, delay, ScriptOf(net), 0);
    assert ConcludedByLastAttempt(code, retries, delay, ScriptOf(net), 0);
    WaitsAppend(redirect.trace, q.trace);
    assert Waits(redirect.trace) == [] by {
      assert redirect.trace == [] || redirect.trace[1..] == [];
    }
  }

  /** The service's entry point with its default policy: 5 retries, 1000 ms. */
  function DefaultInstagramGetUrl(url: string, net: Network): (r: Run<InstagramResponse>)
    ensures PostCount(r.trace) <= 6
  {
    InstagramGetUrl(url, DefaultRetries, DefaultDelayMs, net)
  }

  /** A response without a `set-cookie` header fails the extraction before any
      POST, with the CSRF message wrapped by the request stage. */
  lemma MissingCookieHeaderFails(url: string, retries: int, delay: int, net: Network)
    requires !IsShareLink(url) && GetShortcode(url).Success?
    requires net.root(0) == RootReply(None)
    ensures var r := InstagramGetUrl(url, retries, delay, net);
      r.result == Failure(RequestErrorPrefix + CsrfErrorPrefix + MissingCookieHeader) &&
      r.trace == [RootGet]
  {
    var script := ScriptOf(net);
    assert script.csrf(0) == Failure(CsrfErrorPrefix + MissingCookieHeader);
    CsrfFailureIsNotRetried(GetShortcode(url).value, retries, delay, script, 0);
    assert RequestErrorPrefix + (CsrfErrorPrefix + MissingCookieHeader) == RequestErrorPrefix + CsrfErrorPrefix + MissingCookieHeader;
  }

  lemma {:induction false} WaitsAppend(a: seq<Event>, b: seq<Event>)
    ensures Waits(a + b) == Waits(a) + Waits(b)
    decreases |a|
  {
    if |a| > 0 {
      assert (a + b)[1..] == a[1..] + b;
      WaitsAppend(a[1..], b);
    } else {
      assert a + b == b;
    }
  }

  lemma {:induction false} PostCountAppend(a: seq<Event>, b: seq<Event>)
    ensures PostCount(a + b) == PostCount(a) + PostCount(b)
    decreases |a|
  {
    if |a| > 0 {
      assert (a + b)[1..] == a[1..] + b;
      PostCountAppend(a[1..], b);
    } else {
      assert a + b == b;
    }
  }

  /** The bookkeeping of one retry step: the attempt's two requests, the
      wait, then the remaining attempts. */
  lemma RetryStepFacts(a: AttemptRun, w: int, rest: seq<Event>)
    requires |a.trace| == 2 && a.trace[0] == RootGet && a.trace[1].GraphQLPost?
    ensures Waits(a.trace + [Wait(w)] + rest) == [w] + Waits(rest)
    ensures PostCount(a.trace + [Wait(w)] + rest) == 1 + PostCount(rest)
    ensures PostsFollowRootGets(rest) ==> PostsFollowRootGets(a.trace + [Wait(w)] + rest)
  {
    var head := a.trace + [Wait(w)];
    AttemptTraceCounts(a.trace);
    WaitsAppend(a.trace, [Wait(w)]);
    PostCountAppend(a.trace, [Wait(w)]);
    assert [Wait(w)][1..] == [];
    WaitsAppend(head, rest);
    PostCountAppend(head, rest);
    var t := head + rest;
    forall i | PostsFollowRootGets(rest) && 0 <= i < |t| && t[i].GraphQLPost?
      ensures 0 < i && t[i - 1] == RootGet
    {
      if i >= 3 {
        assert t[i] == rest[i - 3];
        if i - 3 > 0 {
          assert t[i - 1] == rest[i - 4];
        } else {
          assert false;
        }
      }
    }
  }

  /** An attempt's own trace holds no wait and at most one POST. */
  lemma AttemptTraceCounts(t: seq<Event>)
    requires t == [RootGet] || (|t| == 2 && t[0] == RootGet && t[1].GraphQLPost?)
    ensures Waits(t) == []
    ensures PostCount(t) == |t| - 1
    ensures PostsFollowRootGets(t)
  {
    if |t| == 2 {
      assert t[1..][1..] == [];
      assert Waits(t[1..]) == [];
      assert PostCount(t[1..]) == 1;
    } else {
      assert t[1..] == [];
    }
  }

}

=== FILE: pipeline.dfy ===
/** The services wired together as the dependency-injection container does:
    the bot calls the processor, which calls one of the two adapters. The
    adapters stay parameters, so each fact holds whatever they do; the
    Instagram one is `InstagramAdapter.GetFileUrl`, whose contract supplies
    the single remote URL assumed below. */
module Pipeline {
  import opened Wrappers
  import opened DownloadTypes
  import opened DownloadProcessor
  import opened BotUpdate

  /** `processUrl` as the bot sees it: a result, `null` or an error. */
  function ProcessorOf(parse: UrlParser, instagram: string -> Result<DownloadResult, string>,
                       ytdl: string -> Result<DownloadResult, string>): string -> Result<Option<DownloadResult>, string>
  {
    u => ProcessUrl(u, parse, instagram, ytdl).result
  }

  /** A link to an unlisted site is not downloaded: no adapter runs, and the
      user gets the one generic error reply, because the processor's `null`
      cannot be destructured. */
  lemma UnsupportedSiteGetsErrorReply(parse: UrlParser, instagram: string -> Result<DownloadResult, string>,
                                      ytdl: string -> Result<DownloadResult, string>,
                                      id: Option<int>, text: string, u: string, failingSend: Option<nat>)
    requires ExtractUrl(text) == Some(u)
    requires parse(u).Some? && parse(u).value.hostname !in SupportedDomains()
    ensures ProcessUrl(u, parse, instagram, ytdl).calls == []
    ensures OnMessage(TextMessage(id, text), ProcessorOf(parse, instagram, ytdl), failingSend) ==
            Handled([u], [ErrorReply(id)])
  {
    assert ProcessorOf(parse, instagram, ytdl)(u) == Success(None);
  }

  /** A matched link the URL parser rejects ends the same way, also without
      any download. */
  lemma UnparseableLinkGetsErrorReply(parse: UrlParser, instagram: string -> Result<DownloadResult, string>,
                                      ytdl: string -> Result<DownloadResult, string>,
                                      id: Option<int>, text: string, u: string, failingSend: Option<nat>)
    requires parse(u) == None
    ensures ProcessUrl(u, parse, instagram, ytdl).calls == []
    ensures ExtractUrl(text) == Some(u) ==>
            OnMessage(TextMessage(id, text), ProcessorOf(parse, instagram, ytdl), failingSend) ==
            Handled([u], [ErrorReply(id)])
  {
    assert ProcessorOf(parse, instagram, ytdl)(u).Failure?;
  }

  /** A link to an Instagram post whose adapter returns one remote URL is
      answered with exactly one video reply carrying that URL, threaded to the
      message, with no `PART` label. */
  lemma InstagramPostGetsOneVideo(parse: UrlParser, instagram: string -> Result<DownloadResult, string>,
                                  ytdl: string -> Result<DownloadResult, string>,
                                  id: Option<int>, text: string, u: string, media: string)
    requires ExtractUrl(text) == Some(u)
    requires parse(u).Some? && parse(u).value.hostname in InstagramDomains
    requires instagram(u) == Success(DownloadResult([media], Remote))
    ensures ProcessUrl(u, parse, instagram, ytdl).calls == [Call(Instagram, u)]
    ensures OnMessage(TextMessage(id, text), ProcessorOf(parse, instagram, ytdl), None) ==
            Handled([u], [SendVideo(RemoteUrl(media), id)])
  {
    var res := DownloadResult([media], Remote);
    InstagramDomainsListed();
    assert ProcessorOf(parse, instagram, ytdl)(u) == Success(Some(res));
    OneRemoteVideo(res, id);
  }

  /** Both Instagram hostnames are in the table. */
  lemma InstagramDomainsListed()
    ensures forall h :: h in InstagramDomains ==> h in SupportedDomains()
  {
    forall h | h in InstagramDomains ensures h in SupportedDomains() {
      RouteTable(h);
    }
  }

  lemma OneRemoteVideo(res: DownloadResult, id: Option<int>)
    requires |res.urls| == 1 && res.kind == Remote
    ensures ReplyPlan(res, id) == [SendVideo(RemoteUrl(res.urls[0]), id)]
  {
    var plan := ReplyPlan(res, id);
    ReplyPlanContent(res, id);
    assert Videos(plan) == [plan[0].video] + Videos(plan[1..]);
  }
}

=== FILE: strings.dfy ===
/** The few JavaScript string operations the pipeline relies on, written over
    `seq<char>`: `split` on a single separator character, `replace` of the
    first occurrence of a literal pattern, and decimal rendering of a
    non-negative integer (template-literal interpolation of a number). */
module Strings {

  /** `pat` occurs in `s` starting at index `i`. */
  ghost predicate OccursAt(s: string, pat: string, i: int)
  {
    0 <= i && i + |pat| <= |s| && s[i..i + |pat|] == pat
  }

  /** Re-assembles the pieces of a split with the separator between them
      (JavaScript `Array.prototype.join`). */
  function Join(parts: seq<string>, sep: char): string
    requires |parts| >= 1
  {
    if |parts| == 1 then parts[0] else parts[0] + [sep] + Join(parts[1..], sep)
  }

  /** `s.split(sep)` for a one-character separator: the pieces between
      consecutive separators, in order; there is always at least one piece. */
  function Split(s: string, sep: char): (parts: seq<string>)
    ensures |parts| >= 1
    ensures Join(parts, sep) == s
    ensures |parts| == 1 <==> sep !in s
    decreases |s|
  {
    if |s| == 0 then [""]
    else if s[0] == sep then
      var rest := Split(s[1..], sep);
      assert s == [sep] + s[1..];
      [""] + rest
    else
      var rest := Split(s[1..], sep);
      var parts := [[s[0]] + rest[0]] + rest[1..];
      assert parts[1..] == rest[1..];
      assert s == [s[0]] + s[1..];
      parts
  }

  /** No piece of a split contains the separator. */
  lemma {:induction false} SplitPiecesSepFree(s: string, sep: char)
    ensures forall k :: 0 <= k < |Split(s, sep)| ==> sep !in Split(s, sep)[k]
    decreases |s|
  {
    if |s| > 0 {
      SplitPiecesSepFree(s[1..], sep);
    }
  }

  /** One unfolding of `Split` on a string that starts with the separator. */
  lemma SplitSepFirst(t: string, sep: char)
    ensures Split([sep] + t, sep) == [""] + Split(t, sep)
  {
    assert ([sep] + t)[1..] == t;
  }

  /** One unfolding of `Split` on a string that starts with another character. */
  lemma SplitOtherFirst(c: char, t: string, sep: char)
    requires c != sep
    ensures Split([c] + t, sep) == [[c] + Split(t, sep)[0]] + Split(t, sep)[1..]
  {
    assert ([c] + t)[1..] == t;
  }

  /** Splitting undoes joining, as long as no piece contains the separator. */
  lemma {:induction false} SplitJoin(parts: seq<string>, sep: char)
    requires |parts| >= 1
    requires forall k :: 0 <= k < |parts| ==> sep !in parts[k]
    ensures Split(Join(parts, sep), sep) == parts
    decreases |parts|, |parts[0]|
  {
    if |parts| == 1 {
      SplitNoSep(parts[0], sep);
    } else if |parts[0]| == 0 {
      SplitJoin(parts[1..], sep);
      SplitJoinEmptyHead(parts, sep);
    } else {
      var p := parts[0];
      var shorter := [p[1..]] + parts[1..];
      assert shorter[1..] == parts[1..];
      SplitJoin(shorter, sep);
      SplitJoinShorterHead(parts, sep);
    }
  }

  lemma SplitJoinEmptyHead(parts: seq<string>, sep: char)
    requires |parts| >= 2 && parts[0] == ""
    requires Split(Join(parts[1..], sep), sep) == parts[1..]
    ensures Split(Join(parts, sep), sep) == parts
  {
    var tail := Join(parts[1..], sep);
    assert Join(parts, sep) == [sep] + tail;
    SplitSepFirst(tail, sep);
    assert [""] + parts[1..] == parts;
  }

  lemma SplitJoinShorterHead(parts: seq<string>, sep: char)
    requires |parts| >= 2 && |parts[0]| >= 1 && sep !in parts[0]
    requires Split(Join([parts[0][1..]] + parts[1..], sep), sep) == [parts[0][1..]] + parts[1..]
    ensures Split(Join(parts, sep), sep) == parts
  {
    var p := parts[0];
    var shorter := [p[1..]] + parts[1..];
    var t := Join(shorter, sep);
    JoinHeadChar(parts, sep);
    assert p[0] in p;
    SplitOtherFirst(p[0], t, sep);
    var x := Split(t, sep);
    assert x == shorter;
    assert Split(Join(parts, sep), sep) == [[p[0]] + x[0]] + x[1..];
    assert [p[0]] + x[0] == p;
    assert x[1..] == parts[1..];
    assert [p] + parts[1..] == parts;
  }

  /** Joining pieces whose first piece is non-empty starts with that
      piece's first character, followed by the join with it removed. */
  lemma JoinHeadChar(parts: seq<string>, sep: char)
    requires |parts| >= 2 && |parts[0]| >= 1
    ensures Join(parts, sep) == [parts[0][0]] + Join([parts[0][1..]] + parts[1..], sep)
  {
    var p := parts[0];
    var shorter := [p[1..]] + parts[1..];
    assert shorter[1..] == parts[1..];
    assert [p[0]] + p[1..] == p;
  }

  lemma {:induction false} SplitNoSep(s: string, sep: char)
    requires sep !in s
    ensures Split(s, sep) == [s]
  {
  }

  /** The first piece of `p + [sep] + q` is `p` when `p` is separator-free:
      `split(';')[0]` is the text up to the first separator. */
  lemma {:induction false} SplitFirstPiece(p: string, sep: char, q: string)
    requires sep !in p
    ensures Split(p + [sep] + q, sep)[0] == p
    decreases |p|
  {
    var s := p + [sep] + q;
    if |p| == 0 {
      assert s[0] == sep;
    } else {
      assert s[1..] == p[1..] + [sep] + q;
      SplitFirstPiece(p[1..], sep, q);
      assert [p[0]] + p[1..] == p;
    }
  }

  /** Occurrences in a string's tail are the occurrences one place further
      right in the string. */
  lemma OccursShift(s: string, pat: string, i: int)
    requires |s| >= 1 && 0 <= i
    ensures OccursAt(s[1..], pat, i) <==> OccursAt(s, pat, i + 1)
  {
    if i + 1 + |pat| <= |s| {
      assert s[1..][i..i + |pat|] == s[i + 1..i + 1 + |pat|];
    }
  }

  /** `s.replace(pat, "")` with a literal pattern: the first occurrence of
      `pat` is deleted (see `RemoveFirstAbsent` and `RemoveFirstSpec`). */
  function RemoveFirst(s: string, pat: string): string
    decreases |s|
  {
    if pat <= s then s[|pat|..]
    else if |s| == 0 then s
    else [s[0]] + RemoveFirst(s[1..], pat)
  }

  /** Without an occurrence of `pat`, `RemoveFirst` returns `s` unchanged. */
  lemma {:induction false} RemoveFirstAbsent(s: string, pat: string)
    requires forall i :: 0 <= i <= |s| ==> !OccursAt(s, pat, i)
    ensures RemoveFirst(s, pat) == s
    decreases |s|
  {
    if pat <= s {
      assert OccursAt(s, pat, 0);
    } else if |s| > 0 {
      AbsentInTail(s, pat);
      RemoveFirstAbsent(s[1..], pat);
      assert RemoveFirst(s, pat) == [s[0]] + s[1..];
      assert [s[0]] + s[1..] == s;
    }
  }

  /** A pattern absent from `s` is absent from its tail. */
  lemma AbsentInTail(s: string, pat: string)
    requires |s| >= 1
    requires forall i :: 0 <= i <= |s| ==> !OccursAt(s, pat, i)
    ensures forall i :: 0 <= i <= |s[1..]| ==> !OccursAt(s[1..], pat, i)
  {
    forall i | 0 <= i <= |s[1..]|
      ensures !OccursAt(s[1..], pat, i)
    {
      OccursShift(s, pat, i);
    }
  }

  /** With a leftmost occurrence of `pat` at `i`, `RemoveFirst` cuts out
      exactly `s[i..i+|pat|]`. */
  lemma {:induction false} RemoveFirstSpec(s: string, pat: string, i: int)
    requires OccursAt(s, pat, i)
    requires forall j :: 0 <= j < i ==> !OccursAt(s, pat, j)
    ensures RemoveFirst(s, pat) == s[..i] + s[i + |pat|..]
    decreases |s|
  {
    if i == 0 {
      assert pat <= s;
    } else {
      assert !OccursAt(s, pat, 0);
      OccursShift(s, pat, i - 1);
      forall j | 0 <= j < i - 1
        ensures !OccursAt(s[1..], pat, j)
      {
        OccursShift(s, pat, j);
      }
      RemoveFirstSpec(s[1..], pat, i - 1);
      ConsSlices(s, i, |pat|);
    }
  }

  /** Cutting `s[i..i+n]` out of `s` is keeping `s[0]` and cutting
      `s[1..][i-1..i-1+n]` out of the tail. */
  lemma ConsSlices(s: string, i: int, n: nat)
    requires 1 <= i && i + n <= |s|
    ensures s[..i] + s[i + n..] == [s[0]] + (s[1..][..i - 1] + s[1..][i - 1 + n..])
  {
    assert s[..i] == [s[0]] + s[1..][..i - 1];
    assert s[i + n..] == s[1..][i - 1 + n..];
  }

  /** `RemoveFirst` only deletes: it adds no character and never lengthens
      the string. */
  lemma {:induction false} RemoveFirstKeeps(s: string, pat: string)
    ensures |RemoveFirst(s, pat)| <= |s|
    ensures forall c :: c in RemoveFirst(s, pat) ==> c in s
    decreases |s|
  {
    if pat <= s {
      assert forall c :: c in s[|pat|..] ==> c in s;
    } else if |s| > 0 {
      RemoveFirstKeeps(s[1..], pat);
      assert forall c :: c in s[1..] ==> c in s;
    }
  }

  /** The first piece of a split is no longer than the string. */
  lemma SplitFirstPieceShorter(s: string, sep: char)
    ensures |Split(s, sep)[0]| <= |s|
  {
    var parts := Split(s, sep);
    if |parts| > 1 {
      assert Join(parts, sep) == parts[0] + [sep] + Join(parts[1..], sep);
    }
  }

  /** A `prefix` followed by anything loses exactly that prefix. */
  lemma RemoveFirstOfPrefix(pat: string, rest: string)
    ensures RemoveFirst(pat + rest, pat) == rest
  {
    assert pat <= pat + rest;
    assert (pat + rest)[|pat|..] == rest;
  }

  predicate IsDigit(c: char)
  {
    '0' <= c <= '9'
  }

  function DigitChar(d: nat): (c: char)
    requires d < 10
    ensures IsDigit(c)
  {
    "0123456789"[d]
  }

  function DigitValue(c: char): nat
    requires IsDigit(c)
  {
    (c as int - '0' as int) as nat
  }

  /** Reads a decimal numeral; the reference against which `NatToString` is
      checked. */
  function ParseDecimal(s: string): nat
    requires forall k :: 0 <= k < |s| ==> IsDigit(s[k])
  {
    if |s| == 0 then 0 else 10 * ParseDecimal(s[..|s| - 1]) + DigitValue(s[|s| - 1])
  }

  /** The decimal rendering of `n`, as `${n}` prints a non-negative integer:
      only digits, no leading zero, and it reads back as `n`. */
  function NatToString(n: nat): (s: string)
    ensures |s| >= 1
    ensures forall k :: 0 <= k < |s| ==> IsDigit(s[k])
    ensures |s| > 1 ==> s[0] != '0'
    ensures ParseDecimal(s) == n
  {
    if n < 10 then
      var s := [DigitChar(n)];
      assert s[..0] == [];
      s
    else
      var prefix := NatToString(n / 10);
      var s := prefix + [DigitChar(n % 10)];
      assert s[..|s| - 1] == prefix;
      s
  }
}

=== FILE: wrappers.dfy ===
/** Failure-carrying values shared by every module of the model. A thrown
    JavaScript `Error` is modelled as `Failure(message)`. */
module Wrappers {

  /** A value that may be absent (`undefined`, `null`, or a parser that
      throws). */
  datatype Option<+T> = None | Some(value: T)

  /** A value, or the message of the error thrown instead. */
  datatype Result<+R, +E> = Success(value: R) | Failure(error: E)

  /** A step that either passes or fails with an error, and carries no value. */
  datatype Outcome<+E> = Pass | Fail(error: E)
}

=== FILE: yt_dl_adapter.dfy ===
/** The generic extractor (`YtDlAdapterService`): it drives the external
    `yt-dlp` tool. Directory preparation, the metadata query, the download,
    the file check and the chunk splitter are all inputs (`Environment`);
    the model fixes their order, the 180-second duration gate, the 5-minute
    download timeout, the error wrapping and the generated file name. */
module YtDlAdapter {
  import opened Wrappers
  import opened Strings
  import opened DownloadTypes

  const MaxVideoLengthSeconds: nat := 180
  const DownloadTimeoutMs: nat := 300000

  const DirectoryErrorPrefix: string := "Directory access error: "
  const MetadataErrorPrefix: string := "Failed to parse file size: "
  const DownloadErrorPrefix: string := "Failed to download video: "
  const FileCheckErrorPrefix: string := "Downloaded file not accessible: "
  const TooLongMessage: string :=
    "File duration is above " + NatToString(MaxVideoLengthSeconds) + " seconds, skipping download"

  /** What `JSON.parse(stdout)?.duration` passed through `parseInt` gives:
      either `JSON.parse` throws, or a duration that is an integer or NaN
      (`None`: the field is missing or not numeric). */
  datatype MetadataOutput = NotJson(message: string) | Json(duration: Option<int>)

  /** The outcomes of the external steps. `metadata` fails when the
      `yt-dlp -J` process fails; `split` is the chunk splitter's answer. */
  datatype Environment = Environment(
    tempDir: string,
    directory: Outcome<string>,
    metadata: Result<MetadataOutput, string>,
    download: Outcome<string>,
    fileCheck: Outcome<string>,
    split: Result<seq<string>, string>)

  /** External effects, in order, with their arguments. */
  datatype Effect =
    | PrepareDirectory(dir: string)
    | QueryMetadata(url: string)
    | RunDownload(url: string, path: string, timeoutMs: nat)
    | CheckFile(path: string)
    | SplitFile(path: string)

  datatype Run<T> = Run(result: Result<T, string>, effects: seq<Effect>)

  /** `path.join(dir, name)` for a plain file name. */
  function FilePath(dir: string, name: string): string
  {
    dir + "/" + name
  }

  /** The five steps of a complete download of `url` into `path`. */
  function FullPlan(dir: string, url: string, path: string): seq<Effect>
  {
    [PrepareDirectory(dir), QueryMetadata(url), RunDownload(url, path, DownloadTimeoutMs), CheckFile(path), SplitFile(path)]
  }

  /** `fileDuration > 180 && fileDuration !== 0`: a NaN duration compares
      false and passes. */
  predicate TooLong(duration: Option<int>)
  {
    match duration
    case Some(seconds) => seconds > MaxVideoLengthSeconds && seconds != 0
    case None => false
  }

  /** The gate rejects exactly the known durations above 180 seconds; the
      `!== 0` clause never matters. */
  lemma TooLongExactly(duration: Option<int>)
    ensures TooLong(duration) <==> duration.Some? && duration.value > 180
  {
  }

  /** The directory is ready, the metadata query answered with JSON and the
      duration gate let the video through. */
  predicate GatePassed(env: Environment)
  {
    env.directory.Pass? && env.metadata.Success? && env.metadata.value.Json? &&
    !TooLong(env.metadata.value.duration)
  }

  /** `downloadLocalFile(url, fileName)`: every stage runs only when the
      previous one succeeded, so the effects are always a prefix of the full
      plan; the download runs exactly when the directory, the metadata query
      and the duration gate all pass; a success runs the full plan and
      returns the splitter's chunk list unchanged. */
  function DownloadLocalFile(url: string, fileName: string, env: Environment): (r: Run<seq<string>>)
    ensures r.effects <= FullPlan(env.tempDir, url, FilePath(env.tempDir, fileName))
    ensures |r.effects| >= 1
    ensures r.result.Success? ==> r.effects == FullPlan(env.tempDir, url, FilePath(env.tempDir, fileName))
    ensures r.result.Success? ==> env.split == Success(r.result.value)
    ensures RunDownload(url, FilePath(env.tempDir, fileName), DownloadTimeoutMs) in r.effects <==> GatePassed(env)
    ensures r.result.Failure? && RunDownload(url, FilePath(env.tempDir, fileName), DownloadTimeoutMs) in r.effects ==>
              DownloadErrorPrefix <= r.result.error
    // before the download
    ensures env.directory.Fail? ==>
              r == Run(Failure(DirectoryErrorPrefix + env.directory.error), [PrepareDirectory(env.tempDir)])
    ensures env.directory.Pass? && env.metadata.Failure? ==>
              r == Run(Failure(env.metadata.error), FullPlan(env.tempDir, url, FilePath(env.tempDir, fileName))[..2])
    ensures env.directory.Pass? && env.metadata.Success? && env.metadata.value.NotJson? ==>
              r == Run(Failure(MetadataErrorPrefix + env.metadata.value.message),
                       FullPlan(env.tempDir, url, FilePath(env.tempDir, fileName))[..2])
    ensures env.directory.Pass? && env.metadata.Success? && env.metadata.value.Json? &&
            TooLong(env.metadata.value.duration) ==>
              r == Run(Failure(MetadataErrorPrefix + TooLongMessage),
                       FullPlan(env.tempDir, url, FilePath(env.tempDir, fileName))[..2])
    // from the download on
    ensures GatePassed(env) && env.download.Fail? ==>
              r == Run(Failure(DownloadErrorPrefix + env.download.error),
                       FullPlan(env.tempDir, url, FilePath(env.tempDir, fileName))[..3])
    ensures GatePassed(env) && env.download.Pass? && env.fileCheck.Fail? ==>
              r == Run(Failure(DownloadErrorPrefix + FileCheckErrorPrefix + env.fileCheck.error),
                       FullPlan(env.tempDir, url, FilePath(env.tempDir, fileName))[..4])
    ensures GatePassed(env) && env.download.Pass? && env.fileCheck.Pass? && env.split.Failure? ==>
              r == Run(Failure(DownloadErrorPrefix + env.split.error),
                       FullPlan(env.tempDir, url, FilePath(env.tempDir, fileName)))
    ensures GatePassed(env) && env.download.Pass? && env.fileCheck.Pass? && env.split.Success? ==>
              r == Run(Success(env.split.value), FullPlan(env.tempDir, url, FilePath(env.tempDir, fileName)))
  {
    var path := FilePath(env.tempDir, fileName);
    var plan := FullPlan(env.tempDir, url, path);
    if env.directory.Fail? then
      Run(Failure(DirectoryErrorPrefix + env.directory.error), plan[..1])
    else if env.metadata.Failure? then
      Run(Failure(env.metadata.error), plan[..2])
    else if env.metadata.value.NotJson? then
      Run(Failure(MetadataErrorPrefix + env.metadata.value.message), plan[..2])
    else if TooLong(env.metadata.value.duration) then
      Run(Failure(MetadataErrorPrefix + TooLongMessage), plan[..2])
    else if env.download.Fail? then
      assert plan[..3][2] == RunDownload(url, path, DownloadTimeoutMs);
      Run(Failure(DownloadErrorPrefix + env.download.error), plan[..3])
    else if env.fileCheck.Fail? then
      assert plan[..4][2] == RunDownload(url, path, DownloadTimeoutMs);
      Run(Failure(DownloadErrorPrefix + FileCheckErrorPrefix + env.fileCheck.error), plan[..4])
    else if env.split.Failure? then
      assert plan[2] == RunDownload(url, path, DownloadTimeoutMs);
      Run(Failure(DownloadErrorPrefix + env.split.error), plan)
    else
      assert plan[2] == RunDownload(url, path, DownloadTimeoutMs);
      Run(Success(env.split.value), plan)
  }

  /** The gate's message is the one the service writes out. */
  lemma TooLongMessageText()
    ensures TooLongMessage == "File duration is above 180 seconds, skipping download"
  {
    LimitDigits();
  }

  lemma LimitDigits()
    ensures NatToString(MaxVideoLengthSeconds) == "180"
  {
    assert NatToString(1) == "1";
    assert NatToString(18) == "18";
  }

  /** `hostname.replace(/^www\./, '')`: one leading `www.` is dropped. */
  function StripWww(host: string): (h: string)
    ensures "www." <= host ==> host == "www." + h
    ensures !("www." <= host) ==> h == host
  {
    if "www." <= host then host[4..] else host
  }

  /** `generateFileName(url)` at time `now`: `<host>_<now>.mp4`, or
      `video_<now>.mp4` when the URL does not parse. */
  function GenerateFileName(url: string, now: nat, parse: UrlParser): (name: string)
    ensures parse(url).Some? ==> name == StripWww(parse(url).value.hostname) + "_" + NatToString(now) + ".mp4"
    ensures parse(url).None? ==> name == "video_" + NatToString(now) + ".mp4"
    ensures |name| > 4 && name[|name| - 4..] == ".mp4"
  {
    match parse(url)
    case Some(u) => StripWww(u.hostname) + "_" + NatToString(now) + ".mp4"
    case None => "video_" + NatToString(now) + ".mp4"
  }

  /** Two names generated for the same URL at different times differ: the
      timestamp can be read back from the name. */
  lemma FileNameDeterminesTimestamp(url: string, t1: nat, t2: nat, parse: UrlParser)
    requires GenerateFileName(url, t1, parse) == GenerateFileName(url, t2, parse)
    ensures t1 == t2
  {
    var prefix := if parse(url).Some? then StripWww(parse(url).value.hostname) + "_" else "video_";
    var n1 := GenerateFileName(url, t1, parse);
    assert n1 == prefix + NatToString(t1) + ".mp4";
    assert n1 == prefix + NatToString(t2) + ".mp4";
    assert NatToString(t1) == n1[|prefix|..|n1| - 4];
    assert NatToString(t2) == n1[|prefix|..|n1| - 4];
  }

  /** `getFileUrl(url)`: the local chunk paths as a `local` result; errors
      are rethrown as they are. */
  function GetFileUrl(url: string, now: nat, parse: UrlParser, env: Environment): (r: Run<DownloadResult>)
    ensures var inner := DownloadLocalFile(url, GenerateFileName(url, now, parse), env);
      r.effects == inner.effects &&
      (inner.result.Success? ==> r.result == Success(DownloadResult(inner.result.value, Local))) &&
      (inner.result.Failure? ==> r.result == Failure(inner.result.error))
  {
    var inner := DownloadLocalFile(url, GenerateFileName(url, now, parse), env);
    match inner.result
    case Success(chunks) => Run(Success(DownloadResult(chunks, Local)), inner.effects)
    case Failure(e) => Run(Failure(e), inner.effects)
  }
}
